=== FILE: README.md ===
# Wine-review page normaliser

This project models the page-parsing core of the wine-review scraper
(`wine_reviews/scrape_tools.py`):

- **`WineReviewPage`.** It builds a review page from one listing card and the content of
  the card's review page:
  - it seeds a scraped-info dictionary with the card's link, page number and title, plus a
    hash of the page;
  - it writes in the primary-info rows, the secondary-info rows and the flattened
    structured-data pairs;
  - it writes the publication date and the vintage taken from the card title;
  - it records data-quality flags on the way: `4` for a secondary row or structured pair
    whose key is already present, `1` for several years in the title, `2` for none.
- **Typed properties.** These read the dictionary back as typed fields: price, alcohol,
  bottle size, price per millilitre, rating, vintage, the hash digest and the raw texts.
  `_get_properties_and_values` collects all of them, in sorted name order, into one record.
- **The listing-page loop.** `parse_all_review_cards` reads one card per review item, and
  `parse_review_pages` turns each card into a page and the page into its record.

## Modules

| Module | File | Contents |
|---|---|---|
| `Wrappers` | `wrappers.dfy` | `Option`, `Result` |
| `Values` | `values.dfy` | the dictionary values (text, integer, number, boolean, null, list, hash) and the Python exceptions that can escape |
| `Text` | `text.dfy` | `str.split` on one character, `s[1:]`, `s[:-1]` |
| `Numbers` | `numbers.dfy` | `int(str)` and `float(str)` as restricted decimal parsers |
| `Dictionaries` | `merge.dfy` | writing rows into a dictionary (last writer wins) and counting the rows whose key was already there |
| `YearFinder` | `years.dfy` | `re.findall(r"\d{4}", s)` |
| `PropertyNames` | `property_names.dfy` | the sorted list of the class's property names |
| `Fields` | `fields.dfy` | the typed properties and the record |
| `ReviewPages` | `review_page.dfy` | the `WineReviewPage` class, its merge steps and flags |
| `Scraper` | `scraper.dfy` | the card loop and `parse_review_pages` |

The rest of the model is written in terms of Python's exceptions:

- A caught exception becomes `None`.
- An exception that escapes becomes `Failure(e)`. It aborts the enclosing dictionary
  comprehension and the whole `parse_review_pages` call, as it does in Python.

The fetched review page enters the model as a `PageContent` value holding:

- the hash bytes;
- the primary and secondary label/value rows, in document order;
- the flattened structured-data pairs;
- the publication-time meta content.

`parse_review_pages` receives `fetch`, a function from link to `PageContent`.

## Model

| member | source | states |
|---|---|---|
| Fields.Lookup | wine_reviews/scrape_tools.py:131-135 | the lookup is total: it gives the stored value when the key is present and `None` exactly when it is absent |
| Fields.IntOf | wine_reviews/scrape_tools.py:161 | `int(v)`: integer text gives its value, an int itself, a bool 0 or 1, a float its truncation; a missing key, null, a list or the hash object raise `TypeError`; `ValueError` exactly for text that is not an integer literal |
| Fields.Truncate | wine_reviews/scrape_tools.py:161 | `int` of a float rounds toward zero |
| Fields.Vintage | wine_reviews/scrape_tools.py:158-163 | a missing vintage and a stored null (what line 299 writes) are `None`; a stored integer is returned as it is; no exception escapes |
| Fields.Rating | wine_reviews/scrape_tools.py:165-170 | a missing or null rating raises `TypeError`, the only exception that escapes; text gives `int` of the text, and `None` when it is not an integer; a stored int is returned |
| Fields.Price | wine_reviews/scrape_tools.py:172-179 | raises `AttributeError` exactly when `Price` is missing or not text, and raises nothing else; the value of text is stated by `Fields.PriceOfListingText` |
| Fields.Alcohol | wine_reviews/scrape_tools.py:201-207 | raises `TypeError` exactly when `Alcohol` is missing or not text, and raises nothing else; the value of text is stated by `Fields.AlcoholOfPercentText` |
| Fields.BottleSize | wine_reviews/scrape_tools.py:209-220 | raises `AttributeError` exactly when `Bottle Size` is missing or not text, and raises nothing else (a malformed text is `None`) |
| Fields.PricePerMilliliter | wine_reviews/scrape_tools.py:234-238 | a price error escapes; a `None` price gives `None` without reading the bottle size; with a price, a `None` bottle size gives `None` and a bottle-size error escapes; `ZeroDivisionError` exactly when there is a price and the bottle size is 0; a value only when both are present and the size is non-zero |
| Fields.PricePerMilliliterQuotient | wine_reviews/scrape_tools.py:234-238 | with a price and a non-zero bottle size, the result is price divided by bottle size |
| Fields.Sha512Hash | wine_reviews/scrape_tools.py:141-143 | succeeds exactly when the stored value is a hash object, giving its digest; otherwise `AttributeError` |
| Fields.Property | wine_reviews/scrape_tools.py:137-238 | `getattr(page, name)`: each pass-through property (`designation` included) is the stored value or `None` and never raises; `vintage` never raises; no property lets `ValueError` escape; only `sha512_hash`, `rating`, `price`, `alcohol`, `bottle_size` and `price_per_milliliter` can raise; a name that is neither a declared property nor another attribute of the page raises `AttributeError` (see "## Left out") |
| Fields.PropertyRunsGetter | wine_reviews/scrape_tools.py:141-238 | `getattr` of `sha512_hash`, `rating`, `price`, `alcohol`, `bottle_size` or `price_per_milliliter` runs that property's getter, giving its value or the exception it raises |
| Fields.PropertiesAndValues | wine_reviews/scrape_tools.py:310-313 | the record exists exactly when no declared property raises; its keys are exactly the declared properties and each entry is that property's value (`designation`'s the stored value or `None`); a failure is the exception of the first property, in sorted name order, that raises, all earlier ones having succeeded, and is `TypeError`, `AttributeError` or `ZeroDivisionError`, never `ValueError` |
| Fields.RecordHoldsTypedFields | wine_reviews/scrape_tools.py:310-313 | when the record exists, its `price`, `rating`, `alcohol`, `bottle_size`, `price_per_milliliter` and `sha512_hash` entries are what those getters give, so the typed-field lemmas hold of the record |
| Fields.CollectEntry | wine_reviews/scrape_tools.py:311-313 | an entry of a record that exists is the value of its property |
| Fields.RecordRaisesFirstInSortedOrder | wine_reviews/scrape_tools.py:304-313 | an empty dictionary raises `alcohol`'s `TypeError`, since `alcohol` is read before `price` |
| Fields.Collect | wine_reviews/scrape_tools.py:310-313 | the record's keys are exactly the names; each entry is the property of that name; a failure is the exception of the first property that raises, all earlier ones having succeeded |
| Fields.PriceOfListingText | wine_reviews/scrape_tools.py:172-179 | a currency sign, a comma-free text, then nothing or a comma and anything: the price is `float` of that text, and `None` when it is not a number |
| Fields.AlcoholOfPercentText | wine_reviews/scrape_tools.py:201-207 | any text followed by one character: the alcohol is `float` of that text, and `None` when it is not a number |
| Fields.BottleSizeInLitres | wine_reviews/scrape_tools.py:209-215 | `"<number> L"` gives the number times 1000 |
| Fields.BottleSizeInOtherUnit | wine_reviews/scrape_tools.py:209-217 | `"<number> <unit>"` with any unit but `L` gives the number unchanged |
| Fields.BottleSizeMalformed | wine_reviews/scrape_tools.py:209-220 | text without exactly one space, or whose first piece is not a number, gives `None` |
| Fields.PriceExample | wine_reviews/scrape_tools.py:172-179 | `"$45,Buy Now"` is a price of 45 |
| Fields.PriceUnparseableExample | wine_reviews/scrape_tools.py:172-179 | `"$N/A"` is no price (`None`), and does not raise |
| Fields.RatingUnparseableExample | wine_reviews/scrape_tools.py:165-170 | rating text `"N/A"` is no rating (`None`), and does not raise |
| Fields.DecimalThirteenAndAHalf | wine_reviews/scrape_tools.py:205 | `float("13.5")` is 13.5 |
| Fields.AlcoholExample | wine_reviews/scrape_tools.py:201-207 | `"13.5%"` is an alcohol of 13.5 |
| Fields.BottleSizeLitresExample | wine_reviews/scrape_tools.py:209-215 | `"1.5 L"` is 1500 |
| Fields.BottleSizeMillilitresExample | wine_reviews/scrape_tools.py:209-217 | `"750 ml"` is 750 |
| Numbers.ParseInt | wine_reviews/scrape_tools.py:161 | an all-digit string parses to its digit value, and a sign followed by digits to the signed value; only an optional sign followed by digits is accepted; a success without a leading minus is non-negative |
| Numbers.ParseUnsigned | wine_reviews/scrape_tools.py:175-177 | a parsed literal is non-negative, consists only of digits and points, and has at most one point |
| Numbers.ParseDecimal | wine_reviews/scrape_tools.py:175-177 | a parsed literal starts with a digit, a sign or a point, continues with digits and points only, and has at most one point; a signed literal parses exactly when its unsigned part does, and a leading `-` negates the value |
| Numbers.NatDigits | wine_reviews/scrape_tools.py:302 | the reference rendering (`str`) of a natural number, a non-empty run of digits; it is not code at line 302 but the text that `DigitsRoundTrip` shows the `int` there reads back |
| Numbers.DigitsRoundTrip | wine_reviews/scrape_tools.py:302 | reading back the decimal rendering of a natural number gives the number |
| Numbers.IntRoundTrip | wine_reviews/scrape_tools.py:161 | `int(str(n)) == n` for every integer |
| Numbers.DecimalOfNat | wine_reviews/scrape_tools.py:175-177 | `float(str(n)) == n` for every natural number |
| Numbers.DecimalOfInt | wine_reviews/scrape_tools.py:175-177 | `float(str(n)) == n` for every integer, negative ones included |
| Numbers.DecimalWithFraction | wine_reviews/scrape_tools.py:205 | `float("<w>.<digits>")` is `w` plus the digits over the matching power of ten |
| Text.IndexOf | wine_reviews/scrape_tools.py:176 | the index of the first occurrence, and `None` exactly when the character is absent |
| Text.SplitOn | wine_reviews/scrape_tools.py:176 | `split` gives at least one piece, and no piece holds the separator |
| Text.JoinSplit | wine_reviews/scrape_tools.py:176 | joining the pieces of a split with the separator gives back the text |
| Text.SplitCount | wine_reviews/scrape_tools.py:212 | a split has one piece more than the text has separators |
| Text.SplitPair | wine_reviews/scrape_tools.py:212 | two separator-free texts joined by one separator split back into exactly those two |
| Text.SplitHead | wine_reviews/scrape_tools.py:176 | the first piece of a split is the text before the first separator |
| Text.DropFirst | wine_reviews/scrape_tools.py:176 | `s[1:]`: the first character plus the result is `s`; empty stays empty |
| Text.DropLast | wine_reviews/scrape_tools.py:205 | `s[:-1]`: the result plus the last character is `s`; empty stays empty |
| Dictionaries.MergeKeys | wine_reviews/scrape_tools.py:243-245 | after writing rows, the keys are the original keys plus the keys the rows name |
| Dictionaries.MergeLastWriterWins | wine_reviews/scrape_tools.py:243-245 | a key holds the value of the last row that names it |
| Dictionaries.MergeUntouched | wine_reviews/scrape_tools.py:243-245 | a key no row names keeps its presence and its value |
| Dictionaries.CollisionsCountRepeatedRows | wine_reviews/scrape_tools.py:250-254 | the number of duplicate-key flags a merge appends is the number of rows whose key was in the dictionary or named by an earlier row |
| Dictionaries.MergeSize | wine_reviews/scrape_tools.py:250-254 | every row either adds a key or is flagged: key count plus flag count is the original key count plus the row count |
| YearFinder.MatchStarts | wine_reviews/scrape_tools.py:36 | every match starts on four digits, and successive matches do not overlap |
| YearFinder.FindAll | wine_reviews/scrape_tools.py:292 | `findall` returns one four-digit run per match |
| YearFinder.FirstMatch | wine_reviews/scrape_tools.py:36 | the scan finds nothing exactly when no four-digit window exists; otherwise its first match is the leftmost window |
| YearFinder.SkipToMatch | wine_reviews/scrape_tools.py:36 | the scan skips positions where no window starts |
| YearFinder.TwoMatches | wine_reviews/scrape_tools.py:292-296 | two or more runs are found exactly when two non-overlapping four-digit windows exist |
| YearFinder.LeftmostRun | wine_reviews/scrape_tools.py:292-302 | no run is found exactly when there is no window; otherwise the first run is the leftmost window |
| PropertyNames.StrLeTotal | wine_reviews/scrape_tools.py:306 | the code-point order of strings that `sorted` uses is total |
| PropertyNames.StrLeReflexive | wine_reviews/scrape_tools.py:306 | that order is reflexive |
| PropertyNames.StrLeTransitive | wine_reviews/scrape_tools.py:306 | that order is transitive |
| PropertyNames.StrLeAntisymmetric | wine_reviews/scrape_tools.py:306 | that order is antisymmetric |
| PropertyNames.SortedUnique | wine_reviews/scrape_tools.py:306-308 | two sorted permutations of the same names are equal, so the result of `sorted` is determined |
| PropertyNames.ChainSorted | wine_reviews/scrape_tools.py:306-308 | strictly ascending neighbours make a list sorted and free of repeats |
| PropertyNames.AllProperties | wine_reviews/scrape_tools.py:304-308 | `_get_all_properties()` lists every declared property and nothing else, one entry per declared property |
| PropertyNames.AllPropertiesSorted | wine_reviews/scrape_tools.py:304-308 | the property-name list is sorted and has no repeats |
| PropertyNames.AllPropertiesPermutesDeclared | wine_reviews/scrape_tools.py:137-308 | the property-name list is a permutation of the eighteen properties the class declares |
| PropertyNames.AllPropertiesIsSortedDeclared | wine_reviews/scrape_tools.py:304-308 | any sorted permutation of the declared properties is exactly the property-name list |
| ReviewPages.WineReviewPage.constructor | wine_reviews/scrape_tools.py:98-128 | the finished page holds the card, the dictionary built in the fixed order (seed, hash, primary, secondary, structured, date, vintage) and the flags recorded in that order |
| ReviewPages.WineReviewPage.GetPrimaryInfo | wine_reviews/scrape_tools.py:240-245 | every row is written in order and no flag is appended |
| ReviewPages.WineReviewPage.GetSecondaryInfo | wine_reviews/scrape_tools.py:247-254 | every row is written in order; one flag `4` is appended per row whose label is already present when it is written |
| ReviewPages.WineReviewPage.GetJsonPostMetadata | wine_reviews/scrape_tools.py:256-281 | every flattened pair is written in order; one flag `4` is appended per pair whose key is already present |
| ReviewPages.WineReviewPage.GetDatePublished | wine_reviews/scrape_tools.py:283-289 | `date_published` is overwritten with the meta content; no flag |
| ReviewPages.WineReviewPage.GetVintageFromCardTitle | wine_reviews/scrape_tools.py:291-302 | `vintage` is overwritten with the leftmost run's value, or null when there is none; flag `1` for several runs, flag `2` for none |
| ReviewPages.StructuredDataWins | wine_reviews/scrape_tools.py:256-281 | a structured-data pair that no later pair overrides, and whose key is not `date_published` or `vintage`, is in the final dictionary, whatever the card or the rows said |
| ReviewPages.SecondaryInfoWins | wine_reviews/scrape_tools.py:247-254 | a secondary row whose label is not `date_published` or `vintage` beats the primary rows and the card fields, unless a later row or a structured pair names its label |
| ReviewPages.PrimaryInfoKept | wine_reviews/scrape_tools.py:240-245 | a primary row survives when nothing written later names its label |
| ReviewPages.SeedKept | wine_reviews/scrape_tools.py:104-120 | a key nothing writes keeps its seeded card value or hash, and a key nothing writes or seeds is absent |
| ReviewPages.HashReported | wine_reviews/scrape_tools.py:117-143 | `sha512_hash` is the digest of the page hash unless a row or pair overwrote it |
| ReviewPages.VintageIsLeftmostYear | wine_reviews/scrape_tools.py:158-302 | the `vintage` property is `None` exactly when the title has no four-digit window; otherwise it is the value of the leftmost window |
| ReviewPages.DatePublishedReported | wine_reviews/scrape_tools.py:283-289 | the `date_published` property is the meta content, whatever was written before |
| ReviewPages.FlagCounts | wine_reviews/scrape_tools.py:247-302 | duplicate-key flags equal the colliding secondary rows plus colliding pairs; one flag `1` exactly when the title has two non-overlapping windows; one flag `2` exactly when it has none; never flag `3`; no other flags |
| Scraper.CardOf | wine_reviews/scrape_tools.py:72-78 | a card exists exactly when all five elements do; a missing text element raises `AttributeError`, a missing anchor `TypeError`; the card keeps the title, link and page number |
| Scraper.ParseAllReviewCards | wine_reviews/scrape_tools.py:66-80 | succeeds exactly when every item gives a card, and then holds those cards in order; otherwise raises the first item's exception |
| Scraper.BuildPages | wine_reviews/scrape_tools.py:90-92 | one page per card, in card order, each built from its card and its fetched content |
| Scraper.CollectRecords | wine_reviews/scrape_tools.py:93-95 | one record per page, in order; otherwise the first exception a record raises |
| Scraper.ParseReviewPages | wine_reviews/scrape_tools.py:82-95 | no items give no records; a success holds each item's record in order; a failure is the first card failure, or (all cards read) the first record failure |

## Behaviour of the code worth knowing

- **A missing value raises, although the properties are annotated `Optional[...]`.** A
  missing `Price`, `Alcohol`, `Bottle Size` or `rating` raises an exception the code does
  not catch:
  - `Price` and `Bottle Size` raise `AttributeError`, since `None` has no `split`;
  - `Alcohol` raises `TypeError`, since `None[:-1]` is not allowed;
  - `rating` raises `TypeError`, from `int(None)`.

  The exception escapes the record and the whole listing page (`Fields.Collect`,
  `Scraper.ParseReviewPages`).
- **`designation` never records flag `3`**, although `flags` describes flag `3` as "No
  designation found in primary information" (wine_reviews/scrape_tools.py:41).
  `get_value_from_parsed_info` already turns the `KeyError` into `None`, so the
  `except KeyError` around it never runs. `Fields.Lookup` is total (it never fails), and
  `Fields.Property` states that `designation` gives `Success(Raw(Lookup(info,
  "Designation")))`. Since no property read can append a flag, the model gives property
  reads no effect on the page's flags.
- **Bottle-size units.** Only the unit `L` is converted (times 1000); any other unit
  returns the number unchanged.
- **`price_per_milliliter` reads `price` first.** A `None` price gives `None` before
  `bottle_size` is read, so a bottle-size exception surfaces only when there is a price;
  with a price, a `None` bottle size gives `None`. A bottle size of 0 raises
  `ZeroDivisionError`.
- **The vintage comes from the card's title** (`self.card.title`). It does not come from
  the dictionary's `title`, which a row could have overwritten.

## Left out

- HTTP requests, the crawl-delay sleep and the listing URL
  (wine_reviews/scrape_tools.py:56-64, 111-113): they are network I/O. The review page
  arrives as a `PageContent` value, and `fetch` is a parameter.
- HTML traversal with BeautifulSoup: it is library code. Rows, the structured block and
  the meta tag arrive already extracted. Failures of that traversal are not modelled. These
  include:
  - a page without a primary-info or secondary-info list (`IndexError`);
  - a missing meta tag;
  - a listing anchor without `href` (`KeyError`).
- `json.loads` and `pandas.json_normalize`: they are library code. The structured data
  arrives as flattened key/value pairs.
- DataFrame construction and `tqdm` progress reporting: the records come back as a
  sequence of dictionaries.
- `hashlib.sha512` and the response encoding: the hash is an opaque byte sequence, and
  `digest()` returns those bytes.
- IEEE-754 floats: numbers are exact `real`s. Rounding, overflow, `inf` and `nan` are not
  modelled.
- Fields.Property: `getattr` on a name that is another attribute of the page (`flags`,
  `card`, `scraped_info`, `crawl_delay`, `content`, `get_value_from_parsed_info`, ...)
  returns that attribute in Python; the model gives `AttributeError` for every name that is
  not a declared property. The only caller passes declared property names.
- Numbers.ParseInt: accepts only an optional sign and ASCII digits. Python's `int` also
  accepts surrounding whitespace, underscores and non-ASCII digits.
- Numbers.ParseDecimal: accepts only an optional sign, ASCII digits and one point. Python's
  `float` also accepts whitespace, exponents, underscores, non-ASCII decimal digits, `inf`
  and `nan`.
- YearFinder.FindAll: `\d` matches ASCII digits only. Python's `re` also matches other
  Unicode decimal digits.
- Exceptions that only arise from IEEE floats (such as `OverflowError` from `int` of an
  infinite float): they are not modelled.
- Objects with other attributes of the same names, and `vars(cls)` introspection: the
  property list is the fixed list of the eighteen properties declared in
  wine_reviews/scrape_tools.py:137-238.
- The `crawl_delay` attribute and the `response`/`content` attributes of the page object:
  they only feed the I/O that is left out.
- `AttributeRetriever` (wine_reviews/scrape_tools.py:316-324): an abstract stub with no
  behaviour.
- wine_reviews/scrape.py, collect-reviews-by-page.py and wine_reviews/data_models.py: they
  hold HTML access, file reads, argument parsing, SQL persistence and an ORM schema. None
  of them is part of this model.

=== FILE: fields.dfy ===
/** The typed properties of a review page: read-only projections of its
    scraped-info dictionary. Each property reads the dictionary through the
    total lookup, converts what it finds with Python's rules, catches the
    exceptions the source catches (a caught exception gives `None`) and lets
    the others escape (a `Failure`). */
module Fields {
  import opened Wrappers
  import opened Values
  import opened Text
  import opened Numbers
  import PropertyNames

  /** The scraped-info dictionary. */
  type Info = map<string, Value>

  /** What a property returns: a stored value as it is (or `None`), an integer,
      a number, or the digest bytes of the page hash. */
  datatype Field =
    | Raw(value: Option<Value>)
    | Whole(n: Option<int>)
    | Number(x: Option<real>)
    | Digest(bytes: seq<bv8>)

  /** `get_value_from_parsed_info`: the stored value, or `None` for a missing
      key; it never raises. */
  function Lookup(info: Info, key: string): (r: Option<Value>)
    ensures r.Some? <==> key in info
    ensures r.Some? ==> r.value == info[key]
  {
    if key in info then Some(info[key]) else None
  }

  /** Python's `int(x)` truncates a float toward zero. */
  function Truncate(x: real): (n: int)
    ensures x >= 0.0 ==> n as real <= x < n as real + 1.0
    ensures x < 0.0 ==> n as real - 1.0 < x <= n as real
  {
    if x >= 0.0 then x.Floor else -((-x).Floor)
  }

  /** Python's `int(v)` on what a lookup returned: a missing key and a stored
      null are Python's `None`, which raises `TypeError`, as do lists and the
      hash object; text that is not an integer literal raises `ValueError`. */
  function IntOf(v: Option<Value>): (r: Result<int, PyError>)
    ensures r.Failure? ==> r.error in {TypeError, ValueError}
    ensures r == Failure(ValueError) <==> v.Some? && v.value.Text? && ParseInt(v.value.s).None?
    ensures v.None? || v == Some(Null) ==> r == Failure(TypeError)
    ensures v.Some? && (v.value.List? || v.value.Hash?) ==> r == Failure(TypeError)
    ensures v.Some? && v.value.Int? ==> r == Success(v.value.i)
    ensures v.Some? && v.value.Bool? ==> r == Success(if v.value.b then 1 else 0)
    ensures v.Some? && v.value.Real? ==> r == Success(Truncate(v.value.r))
    ensures v.Some? && v.value.Text? && ParseInt(v.value.s).Some? ==> r == Success(ParseInt(v.value.s).value)
  {
    match v
    case None => Failure(TypeError)
    case Some(Int(i)) => Success(i)
    case Some(Bool(b)) => Success(if b then 1 else 0)
    case Some(Real(x)) => Success(Truncate(x))
    case Some(Text(s)) =>
      (match ParseInt(s)
       case Some(n) => Success(n)
       case None => Failure(ValueError))
    case Some(_) => Failure(TypeError)
  }

  /** The `vintage` property: `int` of the stored vintage, with both
      `TypeError` and `ValueError` caught. */
  function Vintage(info: Info): (r: Option<int>)
    ensures "vintage" !in info ==> r == None
    ensures "vintage" in info && info["vintage"].Int? ==> r == Some(info["vintage"].i)
    ensures "vintage" in info && info["vintage"] == Null ==> r == None
  {
    match IntOf(Lookup(info, "vintage"))
    case Success(n) => Some(n)
    case Failure(_) => None
  }

  /** The `rating` property: `int` of the stored rating with only `ValueError`
      caught, so a missing rating raises `TypeError`. */
  function Rating(info: Info): (r: Result<Option<int>, PyError>)
    ensures "rating" !in info ==> r == Failure(TypeError)
    ensures r.Failure? ==> r.error == TypeError
    ensures "rating" in info && info["rating"].Text? ==> r == Success(ParseInt(info["rating"].s))
    ensures "rating" in info && info["rating"].Int? ==> r == Success(Some(info["rating"].i))
    ensures "rating" in info && info["rating"] == Null ==> r == Failure(TypeError)
  {
    match IntOf(Lookup(info, "rating"))
    case Success(n) => Success(Some(n))
    case Failure(ValueError) => Success(None)
    case Failure(e) => Failure(e)
  }

  /** The `price` property: the text before the first comma with its first
      character (the currency sign) dropped, read as a number. Anything but
      text has no `split`, so a missing price raises `AttributeError`. */
  function Price(info: Info): (r: Result<Option<real>, PyError>)
    ensures r.Failure? <==> !("Price" in info && info["Price"].Text?)
    ensures r.Failure? ==> r.error == AttributeError
  {
    match Lookup(info, "Price")
    case Some(Text(s)) => Success(ParseDecimal(DropFirst(SplitOn(s, ',')[0])))
    case _ => Failure(AttributeError)
  }

  /** The `alcohol` property: the text with its last character (the percent
      sign) dropped, read as a number. Slicing a missing value (Python's
      `None`) or a number raises `TypeError`. */
  function Alcohol(info: Info): (r: Result<Option<real>, PyError>)
    ensures r.Failure? <==> !("Alcohol" in info && info["Alcohol"].Text?)
    ensures r.Failure? ==> r.error == TypeError
  {
    match Lookup(info, "Alcohol")
    case Some(Text(s)) => Success(ParseDecimal(DropLast(s)))
    case _ => Failure(TypeError)
  }

  /** The `bottle_size` property: the text must split on a space into exactly
      a number and a unit (otherwise unpacking raises a caught `ValueError`);
      the unit `L` scales litres to millilitres, any other unit leaves the
      number as it is. A missing value has no `split`: `AttributeError`. */
  function BottleSize(info: Info): (r: Result<Option<real>, PyError>)
    ensures r.Failure? <==> !("Bottle Size" in info && info["Bottle Size"].Text?)
    ensures r.Failure? ==> r.error == AttributeError
  {
    match Lookup(info, "Bottle Size")
    case Some(Text(s)) =>
      var parts := SplitOn(s, ' ');
      if |parts| != 2 then Success(None)
      else
        (match ParseDecimal(parts[0])
         case None => Success(None)
         case Some(x) => Success(Some(if parts[1] == "L" then x * 1000.0 else x)))
    case _ => Failure(AttributeError)
  }

  /** The `price_per_milliliter` property. `price` is evaluated first and a
      `None` price short-circuits, so `bottle_size` is not evaluated then; a
      bottle size of zero makes the division raise `ZeroDivisionError`. */
  function PricePerMilliliter(info: Info): (r: Result<Option<real>, PyError>)
    ensures Price(info).Failure? ==> r == Price(info)
    ensures Price(info) == Success(None) ==> r == Success(None)
    ensures Price(info).Success? && Price(info).value.Some? && BottleSize(info) == Success(None) ==> r == Success(None)
    ensures Price(info).Success? && Price(info).value.Some? && BottleSize(info).Failure? ==> r == Failure(BottleSize(info).error)
    ensures r == Failure(ZeroDivisionError)
        <==> Price(info).Success? && Price(info).value.Some? && BottleSize(info) == Success(Some(0.0))
    ensures r.Success? && r.value.Some? ==>
              && Price(info).Success? && Price(info).value.Some?
              && BottleSize(info).Success? && BottleSize(info).value.Some?
              && BottleSize(info).value.value != 0.0
  {
    var price := Price(info);
    if price.Failure? then Failure(price.error)
    else if price.value.None? then Success(None)
    else
      var size := BottleSize(info);
      if size.Failure? then Failure(size.error)
      else if size.value.None? then Success(None)
      else if size.value.value == 0.0 then Failure(ZeroDivisionError)
      else
        Success(Some(price.value.value / size.value.value))
  }

  /** With a price and a non-zero bottle size, the price per millilitre is
      the price divided by the bottle size. */
  lemma PricePerMilliliterQuotient(info: Info, p: real, b: real)
    requires Price(info) == Success(Some(p)) && BottleSize(info) == Success(Some(b)) && b != 0.0
    ensures PricePerMilliliter(info) == Success(Some(p / b))
  {
  }

  /** The `sha512_hash` property: the digest of the stored hash object; any
      other value, or none, has no `digest` and raises `AttributeError`. */
  function Sha512Hash(info: Info): (r: Result<Field, PyError>)
    ensures r.Success? <==> "sha512_hash" in info && info["sha512_hash"].Hash?
    ensures r.Success? ==> r.value == Digest(info["sha512_hash"].digest)
    ensures r.Failure? ==> r.error == AttributeError
  {
    match Lookup(info, "sha512_hash")
    case Some(Hash(d)) => Success(Digest(d))
    case _ => Failure(AttributeError)
  }

  /** The key a property that returns a stored value as it is reads. */
  function RawKey(name: string): Option<string>
  {
    match name
    case "page_number" => Some("page_number")
    case "link" => Some("link")
    case "title" => Some("title")
    case "date_published" => Some("date_published")
    case "designation" => Some("Designation")
    case "variety" => Some("Variety")
    case "appellation" => Some("Appellation")
    case "winery" => Some("Winery")
    case "category" => Some("Category")
    case "author_name" => Some("review.author.name")
    case "review_body" => Some("review.reviewBody")
    case _ => None
  }

  /** The properties that can raise: every other one reads the dictionary
      through the total lookup, or catches what its conversion raises. */
  const MAY_RAISE: seq<string> :=
    ["sha512_hash", "rating", "price", "alcohol", "bottle_size", "price_per_milliliter"]

  /** `getattr(page, name)` for a property name. A pass-through property
      (`designation` among them) never raises; no property lets `ValueError`
      escape; a name that is not a property has no attribute. */
  function Property(info: Info, name: string): (r: Result<Field, PyError>)
    ensures RawKey(name).Some? ==> r == Success(Raw(Lookup(info, RawKey(name).value)))
    ensures name == "designation" ==> r == Success(Raw(Lookup(info, "Designation")))
    ensures name == "vintage" ==> r == Success(Whole(Vintage(info)))
    ensures r.Failure? ==> r.error != ValueError
    ensures r.Failure? && name in PropertyNames.DECLARED ==> name in MAY_RAISE
    ensures name !in PropertyNames.DECLARED ==> r == Failure(AttributeError)
  {
    match RawKey(name)
    case Some(key) => Success(Raw(Lookup(info, key)))
    case None =>
      match name
      case "sha512_hash" => Sha512Hash(info)
      case "vintage" => Success(Whole(Vintage(info)))
      case "rating" => Lift(Rating(info), n => Whole(n))
      case "price" => Lift(Price(info), x => Number(x))
      case "alcohol" => Lift(Alcohol(info), x => Number(x))
      case "bottle_size" => Lift(BottleSize(info), x => Number(x))
      case "price_per_milliliter" => Lift(PricePerMilliliter(info), x => Number(x))
      case _ => Failure(AttributeError)
  }

  /** `getattr(page, name)` for a typed property runs that property's getter:
      its value, or the exception it raises. */
  lemma PropertyRunsGetter(info: Info, name: string)
    ensures name == "sha512_hash" ==> Property(info, name) == Sha512Hash(info)
    ensures name == "rating" ==>
              Property(info, name) == (if Rating(info).Success? then Success(Whole(Rating(info).value))
                                       else Failure(Rating(info).error))
    ensures name == "price" ==>
              Property(info, name) == (if Price(info).Success? then Success(Number(Price(info).value))
                                       else Failure(Price(info).error))
    ensures name == "alcohol" ==>
              Property(info, name) == (if Alcohol(info).Success? then Success(Number(Alcohol(info).value))
                                       else Failure(Alcohol(info).error))
    ensures name == "bottle_size" ==>
              Property(info, name) == (if BottleSize(info).Success? then Success(Number(BottleSize(info).value))
                                       else Failure(BottleSize(info).error))
    ensures name == "price_per_milliliter" ==>
              Property(info, name) == (if PricePerMilliliter(info).Success? then Success(Number(PricePerMilliliter(info).value))
                                       else Failure(PricePerMilliliter(info).error))
  {
  }

  function Lift<T>(r: Result<T, PyError>, wrap: T -> Field): Result<Field, PyError>
  {
    match r
    case Success(v) => Success(wrap(v))
    case Failure(e) => Failure(e)
  }

  /** The dictionary comprehension over `names`: every property evaluated in
      order, the first exception escaping. */
  function Collect(info: Info, names: seq<string>): (r: Result<map<string, Field>, PyError>)
    ensures r.Success? ==> r.value.Keys == set i | 0 <= i < |names| :: names[i]
    ensures r.Success? ==> forall i :: 0 <= i < |names| ==> Property(info, names[i]) == Success(r.value[names[i]])
    ensures r.Failure? ==> exists i :: 0 <= i < |names| && Property(info, names[i]) == Failure(r.error)
                                      && forall j :: 0 <= j < i ==> Property(info, names[j]).Success?
  {
    if names == [] then Success(map[])
    else
      match Property(info, names[0])
      case Failure(e) => Failure(e)
      case Success(f) =>
        match Collect(info, names[1..])
        case Failure(e) =>
          ghost var i :| 0 <= i < |names[1..]| && Property(info, names[1..][i]) == Failure(e)
                        && forall j :: 0 <= j < i ==> Property(info, names[1..][j]).Success?;
          assert Property(info, names[i + 1]) == Failure(e);
          assert forall j :: 0 <= j < i + 1 ==> Property(info, names[j]).Success? by {
            forall j | 0 < j < i + 1 ensures Property(info, names[j]).Success? {
              assert names[j] == names[1..][j - 1];
            }
          }
          Failure(e)
        case Success(d) =>
          var r := d[names[0] := f];
          assert r.Keys == set i | 0 <= i < |names| :: names[i] by {
            forall k | k in r.Keys ensures k in set i | 0 <= i < |names| :: names[i] {
              if k != names[0] {
                var i :| 0 <= i < |names[1..]| && names[1..][i] == k;
                assert names[i + 1] == k;
              }
            }
            forall i | 0 <= i < |names| ensures names[i] in r.Keys {
              if i > 0 { assert names[i] == names[1..][i - 1]; }
            }
          }
          assert forall i :: 0 <= i < |names| ==> Property(info, names[i]) == Success(r[names[i]]) by {
            forall i | 0 <= i < |names| ensures Property(info, names[i]) == Success(r[names[i]]) {
              if i > 0 && names[i] != names[0] { assert names[i] == names[1..][i - 1]; }
            }
          }
          Success(r)
  }

  /** `_get_properties_and_values()`: every property, in the order of
      `_get_all_properties()`. */
  function PropertiesAndValues(info: Info): (r: Result<map<string, Field>, PyError>)
    ensures r.Success? <==> forall n :: n in PropertyNames.DECLARED ==> Property(info, n).Success?
    ensures r.Success? ==> forall n :: n in r.value.Keys <==> n in PropertyNames.DECLARED
    ensures r.Success? ==> r.value["designation"] == Raw(Lookup(info, "Designation"))
    ensures r.Success? ==> forall n :: n in PropertyNames.DECLARED ==> Property(info, n) == Success(r.value[n])
    ensures r.Failure? ==>
              exists i :: 0 <= i < |PropertyNames.AllProperties()|
                          && Property(info, PropertyNames.AllProperties()[i]) == Failure(r.error)
                          && forall j :: 0 <= j < i ==> Property(info, PropertyNames.AllProperties()[j]).Success?
    ensures r.Failure? ==> r.error in {TypeError, AttributeError, ZeroDivisionError}
  {
    var names := PropertyNames.AllProperties();
    var r := Collect(info, names);
    assert forall n :: n in names <==> n in PropertyNames.DECLARED;
    r
  }

  /** A record that exists reports the page's typed fields: each typed entry
      is what that property's getter gives, so the lemmas about `Price`,
      `Rating`, `Alcohol`, `BottleSize`, `PricePerMilliliter` and `Sha512Hash`
      are about the record. */
  lemma RecordHoldsTypedFields(info: Info)
    requires PropertiesAndValues(info).Success?
    ensures "price" in PropertiesAndValues(info).value && "rating" in PropertiesAndValues(info).value
    ensures "alcohol" in PropertiesAndValues(info).value && "bottle_size" in PropertiesAndValues(info).value
    ensures "price_per_milliliter" in PropertiesAndValues(info).value && "sha512_hash" in PropertiesAndValues(info).value
    ensures Price(info).Success? && PropertiesAndValues(info).value["price"] == Number(Price(info).value)
    ensures Rating(info).Success? && PropertiesAndValues(info).value["rating"] == Whole(Rating(info).value)
    ensures Alcohol(info).Success? && PropertiesAndValues(info).value["alcohol"] == Number(Alcohol(info).value)
    ensures BottleSize(info).Success? && PropertiesAndValues(info).value["bottle_size"] == Number(BottleSize(info).value)
    ensures PricePerMilliliter(info).Success?
            && PropertiesAndValues(info).value["price_per_milliliter"] == Number(PricePerMilliliter(info).value)
    ensures Sha512Hash(info).Success? && PropertiesAndValues(info).value["sha512_hash"] == Sha512Hash(info).value
  {
    var names := PropertyNames.AllProperties();
    var record := PropertiesAndValues(info).value;
    assert Collect(info, names) == Success(record);
    forall name | name in MAY_RAISE
      ensures name in record && Property(info, name) == Success(record[name])
    {
      assert name in PropertyNames.DECLARED;
      CollectEntry(info, names, record, name);
    }
    PropertyRunsGetter(info, "price");
    PropertyRunsGetter(info, "rating");
    PropertyRunsGetter(info, "alcohol");
    PropertyRunsGetter(info, "bottle_size");
    PropertyRunsGetter(info, "price_per_milliliter");
    PropertyRunsGetter(info, "sha512_hash");
  }

  /** An entry of a record that exists is its property's value. */
  lemma CollectEntry(info: Info, names: seq<string>, record: map<string, Field>, name: string)
    requires Collect(info, names) == Success(record) && name in names
    ensures name in record && Property(info, name) == Success(record[name])
  {
    var i :| 0 <= i < |names| && names[i] == name;
  }

  /** The record is built in sorted name order: with neither `Alcohol` nor
      `Price` stored, `alcohol` raises its `TypeError` before `price` is read. */
  lemma RecordRaisesFirstInSortedOrder()
    ensures PropertiesAndValues(map[]) == Failure(TypeError)
  {
    var info: Info := map[];
    var names := PropertyNames.AllProperties();
    assert names[0] == "alcohol";
    assert Property(info, "alcohol") == Failure(TypeError) by {
      assert Alcohol(info) == Failure(TypeError);
    }
    assert Collect(info, names) == Failure(TypeError);
  }

  /** Price text is a currency sign, a literal without commas, and
      optionally a comma and anything after it: the price is the literal read
      as a number, and `None` when it is not one. */
  lemma PriceOfListingText(info: Info, sign: char, d: string, tail: string)
    requires sign != ',' && ',' !in d
    requires tail == [] || tail[0] == ','
    requires "Price" in info && info["Price"] == Text([sign] + d + tail)
    ensures Price(info) == Success(ParseDecimal(d))
  {
    SplitHead([sign] + d, tail, ',');
    assert DropFirst([sign] + d) == d;
  }

  /** Alcohol text is a literal and one more character (the percent sign):
      the alcohol is the literal read as a number, and `None` when it is not
      one. */
  lemma AlcoholOfPercentText(info: Info, d: string, percent: char)
    requires "Alcohol" in info && info["Alcohol"] == Text(d + [percent])
    ensures Alcohol(info) == Success(ParseDecimal(d))
  {
    assert DropLast(d + [percent]) == (d + [percent])[..|d|] == d;
  }

  /** Bottle-size text that splits into a number and a unit. */
  lemma BottleSizeOfParts(info: Info, s: string, number: string, unit: string, x: real)
    requires "Bottle Size" in info && info["Bottle Size"] == Text(s)
    requires SplitOn(s, ' ') == [number, unit] && ParseDecimal(number) == Some(x)
    ensures BottleSize(info) == Success(Some(if unit == "L" then x * 1000.0 else x))
  {
  }

  /** Bottle-size text in litres: the number times a thousand. */
  lemma BottleSizeInLitres(info: Info, number: string, x: real)
    requires ' ' !in number && ParseDecimal(number) == Some(x)
    requires "Bottle Size" in info && info["Bottle Size"] == Text(number + " L")
    ensures BottleSize(info) == Success(Some(x * 1000.0))
  {
    assert number + " L" == number + [' '] + "L";
    SplitPair(number, "L", ' ');
    BottleSizeOfParts(info, number + " L", number, "L", x);
  }

  /** Bottle-size text in any unit but `L` (millilitres, or anything else):
      the number as it is. */
  lemma BottleSizeInOtherUnit(info: Info, number: string, unit: string, x: real)
    requires ' ' !in number && ' ' !in unit && unit != "L"
    requires ParseDecimal(number) == Some(x)
    requires "Bottle Size" in info && info["Bottle Size"] == Text(number + " " + unit)
    ensures BottleSize(info) == Success(Some(x))
  {
    assert number + " " + unit == number + [' '] + unit;
    SplitPair(number, unit, ' ');
    BottleSizeOfParts(info, number + " " + unit, number, unit, x);
  }

  /** Bottle-size text that does not have exactly one space, or whose first
      piece is not a number, gives `None`. */
  lemma BottleSizeMalformed(info: Info, s: string)
    requires "Bottle Size" in info && info["Bottle Size"] == Text(s)
    requires Occurrences(s, ' ') != 1 || ParseDecimal(SplitOn(s, ' ')[0]) == None
    ensures BottleSize(info) == Success(None)
  {
    SplitCount(s, ' ');
  }

  /** Price text `"$45,Buy Now"` is a price of 45. */
  lemma PriceExample()
    ensures Price(map["Price" := Text("$45,Buy Now")]) == Success(Some(45.0))
  {
    assert NatDigits(45) == "45";
    assert "$45,Buy Now" == ['$'] + NatDigits(45) + ",Buy Now";
    PriceOfListingText(map["Price" := Text("$45,Buy Now")], '$', NatDigits(45), ",Buy Now");
    DecimalOfNat(45);
  }

  /** Price text `"$N/A"` is no price, and does not raise. */
  lemma PriceUnparseableExample()
    ensures Price(map["Price" := Text("$N/A")]) == Success(None)
  {
    assert "$N/A" == ['$'] + "N/A" + [];
    PriceOfListingText(map["Price" := Text("$N/A")], '$', "N/A", []);
  }

  lemma DecimalThirteenAndAHalf()
    ensures ParseDecimal("13.5") == Some(13.5)
  {
    assert NatDigits(13) == "13";
    assert "13.5" == NatDigits(13) + "." + "5";
    DecimalWithFraction(13, "5");
    assert DigitsValue("5") == 5 by {
      assert "5"[..0] == [];
    }
    assert Pow10(1) == 10;
  }

  /** Rating text `"N/A"` is no rating, and does not raise. */
  lemma RatingUnparseableExample()
    ensures Rating(map["rating" := Text("N/A")]) == Success(None)
  {
  }

  /** Alcohol text `"13.5%"` is 13.5. */
  lemma AlcoholExample()
    ensures Alcohol(map["Alcohol" := Text("13.5%")]) == Success(Some(13.5))
  {
    assert "13.5%" == "13.5" + ['%'];
    AlcoholOfPercentText(map["Alcohol" := Text("13.5%")], "13.5", '%');
    DecimalThirteenAndAHalf();
  }

  /** `"1.5 L"` is 1500 ml. */
  lemma BottleSizeLitresExample()
    ensures BottleSize(map["Bottle Size" := Text("1.5 L")]) == Success(Some(1500.0))
  {
    assert NatDigits(1) == "1";
    DecimalWithFraction(1, "5");
    assert "1.5" == NatDigits(1) + "." + "5";
    BottleSizeInLitres(map["Bottle Size" := Text("1.5 L")], "1.5", 1.5);
  }

  /** `"750 ml"` is 750 ml. */
  lemma BottleSizeMillilitresExample()
    ensures BottleSize(map["Bottle Size" := Text("750 ml")]) == Success(Some(750.0))
  {
    assert NatDigits(750) == "750";
    DecimalOfNat(750);
    BottleSizeInOtherUnit(map["Bottle Size" := Text("750 ml")], "750", "ml", 750.0);
  }
}

=== FILE: merge.dfy ===
/** Writing a sequence of key/value rows into a dictionary, one row at a time,
    as the review-page normaliser does for the primary-info rows, the
    secondary-info rows and the flattened structured-data pairs: a later row
    overwrites an earlier value under the same key, and a row whose key is
    already present is a collision (the merge steps that flag duplicates
    append one flag per collision). */
module Dictionaries {

  /** The dictionary after writing `rows` into `m` from first to last. */
  function Merge<K, V>(m: map<K, V>, rows: seq<(K, V)>): map<K, V>
    decreases |rows|
  {
    if rows == [] then m
    else
      var last := rows[|rows| - 1];
      Merge(m, rows[..|rows| - 1])[last.0 := last.1]
  }

  /** The number of rows whose key is already in the dictionary at the moment
      the row is written. */
  function Collisions<K, V>(m: map<K, V>, rows: seq<(K, V)>): nat
    decreases |rows|
  {
    if rows == [] then 0
    else
      var init := rows[..|rows| - 1];
      Collisions(m, init) + (if rows[|rows| - 1].0 in Merge(m, init) then 1 else 0)
  }

  /** The keys the rows name. */
  function KeysOf<K, V>(rows: seq<(K, V)>): set<K>
  {
    set i | 0 <= i < |rows| :: rows[i].0
  }

  /** Row `i` collides: its key is in the original dictionary or an earlier row
      has the same key. */
  predicate Repeated<K, V>(m: map<K, V>, rows: seq<(K, V)>, i: int)
    requires 0 <= i < |rows|
  {
    rows[i].0 in m || exists j :: 0 <= j < i && rows[j].0 == rows[i].0
  }

  /** The indices of the colliding rows. */
  function RepeatedRows<K, V>(m: map<K, V>, rows: seq<(K, V)>): set<int>
  {
    set i | 0 <= i < |rows| && Repeated(m, rows, i)
  }

  lemma KeysOfSnoc<K, V>(rows: seq<(K, V)>)
    requires rows != []
    ensures KeysOf(rows) == KeysOf(rows[..|rows| - 1]) + {rows[|rows| - 1].0}
  {
    var init := rows[..|rows| - 1];
    forall k | k in KeysOf(rows) ensures k in KeysOf(init) + {rows[|rows| - 1].0} {
      var i :| 0 <= i < |rows| && rows[i].0 == k;
      if i < |rows| - 1 {
        assert init[i].0 == k;
      }
    }
    forall k | k in KeysOf(init) ensures k in KeysOf(rows) {
      var i :| 0 <= i < |init| && init[i].0 == k;
      assert rows[i].0 == k;
    }
  }

  /** The merged dictionary holds exactly the original keys and the keys the
      rows name. */
  lemma {:induction false} MergeKeys<K, V>(m: map<K, V>, rows: seq<(K, V)>)
    ensures Merge(m, rows).Keys == m.Keys + KeysOf(rows)
    decreases |rows|
  {
    if rows != [] {
      MergeKeys(m, rows[..|rows| - 1]);
      KeysOfSnoc(rows);
    }
  }

  /** Last writer wins: a key ends up holding the value of the last row that
      names it. */
  lemma {:induction false} MergeLastWriterWins<K, V>(m: map<K, V>, rows: seq<(K, V)>, i: int)
    requires 0 <= i < |rows|
    requires forall j :: i < j < |rows| ==> rows[j].0 != rows[i].0
    ensures rows[i].0 in Merge(m, rows) && Merge(m, rows)[rows[i].0] == rows[i].1
    decreases |rows|
  {
    if i < |rows| - 1 {
      var init := rows[..|rows| - 1];
      MergeLastWriterWins(m, init, i);
    }
  }

  /** A key no row names keeps its presence and its value. */
  lemma {:induction false} MergeUntouched<K, V>(m: map<K, V>, rows: seq<(K, V)>, k: K)
    requires forall j :: 0 <= j < |rows| ==> rows[j].0 != k
    ensures k in Merge(m, rows) <==> k in m
    ensures k in m ==> Merge(m, rows)[k] == m[k]
    decreases |rows|
  {
    if rows != [] {
      MergeUntouched(m, rows[..|rows| - 1], k);
    }
  }

  /** The last row collides exactly when its key is present before it is
      written. */
  lemma RepeatedLast<K, V>(m: map<K, V>, rows: seq<(K, V)>)
    requires rows != []
    ensures rows[|rows| - 1].0 in Merge(m, rows[..|rows| - 1]) <==> Repeated(m, rows, |rows| - 1)
  {
    var n := |rows| - 1;
    var init := rows[..n];
    MergeKeys(m, init);
    if rows[n].0 in KeysOf(init) {
      var j :| 0 <= j < |init| && init[j].0 == rows[n].0;
      assert rows[j].0 == rows[n].0;
    }
    if exists j :: 0 <= j < n && rows[j].0 == rows[n].0 {
      var j :| 0 <= j < n && rows[j].0 == rows[n].0;
      assert init[j].0 == rows[n].0;
    }
  }

  /** Whether an earlier row collides does not depend on the rows after it. */
  lemma RepeatedPrefix<K, V>(m: map<K, V>, rows: seq<(K, V)>, n: nat)
    requires n <= |rows|
    ensures forall i :: 0 <= i < n ==> (Repeated(m, rows[..n], i) <==> Repeated(m, rows, i))
  {
    var init := rows[..n];
    forall i | 0 <= i < n ensures Repeated(m, init, i) <==> Repeated(m, rows, i) {
      assert init[i] == rows[i];
      if exists j :: 0 <= j < i && rows[j].0 == rows[i].0 {
        var j :| 0 <= j < i && rows[j].0 == rows[i].0;
        assert init[j].0 == init[i].0;
      }
    }
  }

  /** The collision count is the number of rows whose key was already present
      in the dictionary or named by an earlier row. */
  lemma {:induction false} CollisionsCountRepeatedRows<K, V>(m: map<K, V>, rows: seq<(K, V)>)
    ensures Collisions(m, rows) == |RepeatedRows(m, rows)|
    decreases |rows|
  {
    if rows == [] {
      assert RepeatedRows(m, rows) == {};
    } else {
      var n := |rows| - 1;
      var init := rows[..n];
      CollisionsCountRepeatedRows(m, init);
      RepeatedLast(m, rows);
      RepeatedPrefix(m, rows, n);
      if Repeated(m, rows, n) {
        assert RepeatedRows(m, rows) == RepeatedRows(m, init) + {n};
      } else {
        assert RepeatedRows(m, rows) == RepeatedRows(m, init);
      }
    }
  }

  /** Every row either adds a new key or collides: the number of keys grows
      by the number of rows less the number of collisions. */
  lemma {:induction false} MergeSize<K, V>(m: map<K, V>, rows: seq<(K, V)>)
    ensures |Merge(m, rows).Keys| + Collisions(m, rows) == |m.Keys| + |rows|
    decreases |rows|
  {
    if rows != [] {
      var init := rows[..|rows| - 1];
      var last := rows[|rows| - 1];
      MergeSize(m, init);
      var before := Merge(m, init);
      if last.0 in before {
        assert before[last.0 := last.1].Keys == before.Keys;
      } else {
        assert before[last.0 := last.1].Keys == before.Keys + {last.0};
      }
    }
  }
}

=== FILE: numbers.dfy ===
/** The two numeric conversions the typed properties apply to text: Python's
    `int(str)` and `float(str)`, restricted to plain ASCII decimal literals
    (an optional sign, digits, and for `float` at most one decimal point).
    A conversion that fails is `None`, standing for the `ValueError` Python
    raises. Numbers are exact (`int`, `real`); there is no IEEE rounding. */
module Numbers {
  import opened Wrappers
  import Text

  predicate IsDigit(c: char)
  {
    '0' <= c <= '9'
  }

  predicate AllDigits(s: string)
  {
    forall i :: 0 <= i < |s| ==> IsDigit(s[i])
  }

  function DigitValue(c: char): (d: nat)
    requires IsDigit(c)
    ensures d < 10
  {
    (c as int) - ('0' as int)
  }

  function DigitChar(d: nat): (c: char)
    requires d < 10
    ensures IsDigit(c) && DigitValue(c) == d
  {
    (('0' as int) + d) as char
  }

  /** The value of a string of decimal digits, most significant first. */
  function DigitsValue(s: string): nat
    requires AllDigits(s)
    decreases |s|
  {
    if s == [] then 0 else DigitsValue(s[..|s| - 1]) * 10 + DigitValue(s[|s| - 1])
  }

  /** `str(n)` for a natural number: its shortest decimal rendering. */
  function NatDigits(n: nat): (s: string)
    ensures s != [] && AllDigits(s)
  {
    if n < 10 then [DigitChar(n)] else NatDigits(n / 10) + [DigitChar(n % 10)]
  }

  /** `str(n)` for any integer. */
  function IntString(n: int): string
  {
    if n < 0 then "-" + NatDigits(-n) else NatDigits(n)
  }

  function Pow10(k: nat): (p: nat)
    ensures p >= 1
  {
    if k == 0 then 1 else 10 * Pow10(k - 1)
  }

  /** `int(s)`: an optional sign followed by at least one digit. */
  function ParseInt(s: string): (r: Option<int>)
    ensures r.Some? && s != [] && s[0] != '-' ==> r.value >= 0
    ensures s != [] && AllDigits(s) ==> r == Some(DigitsValue(s))
    ensures |s| >= 2 && s[0] in "+-" && AllDigits(s[1..]) ==>
              r == Some(if s[0] == '-' then -(DigitsValue(s[1..]) as int) else DigitsValue(s[1..]))
    ensures r.Some? ==> s != [] && (IsDigit(s[0]) || s[0] in "+-") && forall i :: 0 < i < |s| ==> IsDigit(s[i])
  {
    if s == [] then None
    else if s[0] == '-' || s[0] == '+' then
      var body := s[1..];
      if body != [] && AllDigits(body) then
        Some(if s[0] == '-' then -(DigitsValue(body) as int) else DigitsValue(body))
      else None
    else if AllDigits(s) then Some(DigitsValue(s))
    else None
  }

  /** The number `whole.ddd`, where the `places` fraction digits `ddd` have
      the value `digits`: `whole + digits / 10^places`. */
  function Fixed(whole: nat, digits: nat, places: nat): (x: real)
    ensures x >= whole as real
  {
    var q := digits as real / Pow10(places) as real;
    assert q >= 0.0 by {
      DivNonnegative(digits as real, Pow10(places) as real);
    }
    whole as real + q
  }

  lemma DivNonnegative(a: real, b: real)
    requires a >= 0.0 && b > 0.0
    ensures a / b >= 0.0
  {
  }

  /** The value of the literal `whole + "." + fraction`. */
  function FixedPoint(whole: string, fraction: string): real
    requires AllDigits(whole) && AllDigits(fraction)
  {
    Fixed(DigitsValue(whole), DigitsValue(fraction), |fraction|)
  }

  /** An unsigned decimal literal: digits, optionally one point and more
      digits, with at least one digit in all (`"45"`, `"1.5"`, `"45."`, `".5"`). */
  function ParseUnsigned(s: string): (r: Option<real>)
    ensures r.Some? ==> r.value >= 0.0
    ensures r.Some? ==> forall i :: 0 <= i < |s| ==> IsDigit(s[i]) || s[i] == '.'
    ensures r.Some? ==> forall i, j :: 0 <= i < j < |s| && s[i] == '.' ==> s[j] != '.'
  {
    match Text.IndexOf(s, '.')
    case None =>
      if s != [] && AllDigits(s) then Some(DigitsValue(s) as real) else None
    case Some(dot) =>
      var whole, fraction := s[..dot], s[dot + 1..];
      if AllDigits(whole) && AllDigits(fraction) && |whole| + |fraction| > 0 then
        assert s == whole + "." + fraction;
        Some(FixedPoint(whole, fraction))
      else None
  }

  /** `float(s)`: an optional sign followed by an unsigned decimal literal. */
  function ParseDecimal(s: string): (r: Option<real>)
    ensures r.Some? ==> forall i :: 0 < i < |s| ==> IsDigit(s[i]) || s[i] == '.'
    ensures r.Some? ==> s != [] && (IsDigit(s[0]) || s[0] in "+-.")
    ensures r.Some? ==> forall i, j :: 0 <= i < j < |s| && s[i] == '.' ==> s[j] != '.'
    ensures s != [] && s[0] in "+-" ==>
              && (r.Some? <==> ParseUnsigned(s[1..]).Some?)
              && (r.Some? ==> r.value == if s[0] == '-' then -ParseUnsigned(s[1..]).value else ParseUnsigned(s[1..]).value)
  {
    if s != [] && (s[0] == '-' || s[0] == '+') then
      match ParseUnsigned(s[1..])
      case None => None
      case Some(x) => Some(if s[0] == '-' then -x else x)
    else ParseUnsigned(s)
  }

  lemma {:induction false} DigitsValueAppend(s: string, c: char)
    requires AllDigits(s) && IsDigit(c)
    ensures AllDigits(s + [c]) && DigitsValue(s + [c]) == DigitsValue(s) * 10 + DigitValue(c)
  {
    assert (s + [c])[..|s|] == s;
  }

  /** Reading back the decimal rendering of a natural number gives the number. */
  lemma {:induction false} DigitsRoundTrip(n: nat)
    ensures DigitsValue(NatDigits(n)) == n
  {
    if n >= 10 {
      DigitsRoundTrip(n / 10);
      DigitsValueAppend(NatDigits(n / 10), DigitChar(n % 10));
    }
  }

  /** `int(str(n)) == n`. */
  lemma IntRoundTrip(n: int)
    ensures ParseInt(IntString(n)) == Some(n)
  {
    DigitsRoundTrip(if n < 0 then -n else n);
    if n < 0 {
      assert IntString(n)[1..] == NatDigits(-n);
    }
  }

  /** `float(str(n)) == n` for a natural number. */
  lemma DecimalOfNat(n: nat)
    ensures ParseDecimal(NatDigits(n)) == Some(n as real)
  {
    DigitsRoundTrip(n);
    assert '.' !in NatDigits(n);
  }

  /** `float(str(n)) == n` for any integer, negative ones included. */
  lemma DecimalOfInt(n: int)
    ensures ParseDecimal(IntString(n)) == Some(n as real)
  {
    DecimalOfNat(if n < 0 then -n else n);
    if n < 0 {
      assert IntString(n)[1..] == NatDigits(-n);
      assert '.' !in NatDigits(-n);
    }
  }

  /** Digits, a point and digits read as the fixed-point value they write. */
  lemma UnsignedWithPoint(whole: string, fraction: string)
    requires AllDigits(whole) && AllDigits(fraction) && whole != []
    ensures ParseUnsigned(whole + "." + fraction) == Some(FixedPoint(whole, fraction))
  {
    var s := whole + "." + fraction;
    assert '.' !in whole;
    assert s[|whole|] == '.' && s[..|whole|] == whole && s[|whole| + 1..] == fraction;
    assert Text.IndexOf(s, '.') == Some(|whole|);
  }

  /** `float(str(w) + "." + f)` is `w` plus the fraction written by the digits `f`. */
  lemma DecimalWithFraction(w: nat, f: string)
    requires AllDigits(f)
    ensures ParseDecimal(NatDigits(w) + "." + f) == Some(Fixed(w, DigitsValue(f), |f|))
  {
    var d := NatDigits(w);
    var s := d + "." + f;
    UnsignedWithPoint(d, f);
    assert s[0] == d[0] && IsDigit(s[0]);
    assert ParseDecimal(s) == ParseUnsigned(s);
    DigitsRoundTrip(w);
  }
}

=== FILE: property_names.dfy ===
/** The list of a review page's property names in the order the page reports
    them: the properties in the order the class declares them, passed through
    `sorted`, which orders Python strings code point by code point. */
module PropertyNames {

  /** Python's `a <= b` on strings: compare code points left to right; a
      proper prefix comes first. */
  predicate StrLe(a: string, b: string)
    decreases |a|
  {
    a == [] || (b != [] && (a[0] < b[0] || (a[0] == b[0] && StrLe(a[1..], b[1..]))))
  }

  lemma {:induction false} StrLeTotal(a: string, b: string)
    ensures StrLe(a, b) || StrLe(b, a)
    decreases |a|
  {
    if a != [] && b != [] && a[0] == b[0] {
      StrLeTotal(a[1..], b[1..]);
    }
  }

  lemma {:induction false} StrLeReflexive(a: string)
    ensures StrLe(a, a)
    decreases |a|
  {
    if a != [] {
      StrLeReflexive(a[1..]);
    }
  }

  lemma {:induction false} StrLeTransitive(a: string, b: string, c: string)
    requires StrLe(a, b) && StrLe(b, c)
    ensures StrLe(a, c)
    decreases |a|
  {
    if a != [] && a[0] == b[0] && b[0] == c[0] {
      StrLeTransitive(a[1..], b[1..], c[1..]);
    }
  }

  lemma {:induction false} StrLeAntisymmetric(a: string, b: string)
    requires StrLe(a, b) && StrLe(b, a)
    ensures a == b
    decreases |a|
  {
    if a != [] {
      StrLeAntisymmetric(a[1..], b[1..]);
      assert a == [a[0]] + a[1..] && b == [b[0]] + b[1..];
    }
  }

  predicate Sorted(s: seq<string>)
  {
    forall i, j :: 0 <= i < j < |s| ==> StrLe(s[i], s[j])
  }

  /** A sequence has one sorted permutation only, so whatever list Python's
      `sorted` returns is determined by its two promises. */
  lemma {:induction false} SortedUnique(a: seq<string>, b: seq<string>)
    requires Sorted(a) && Sorted(b)
    requires multiset(a) == multiset(b)
    ensures a == b
    decreases |a|
  {
    if a == [] {
      assert |multiset(b)| == 0;
    } else {
      SameHead(a, b);
      SortedUnique(a[1..], b[1..]);
      assert a == [a[0]] + a[1..] && b == [b[0]] + b[1..];
    }
  }

  /** Two sorted permutations start with the same element, and what follows
      it is again two sorted permutations. */
  lemma SameHead(a: seq<string>, b: seq<string>)
    requires Sorted(a) && Sorted(b) && a != []
    requires multiset(a) == multiset(b)
    ensures b != [] && a[0] == b[0]
    ensures Sorted(a[1..]) && Sorted(b[1..]) && multiset(a[1..]) == multiset(b[1..])
  {
    var x := a[0];
    assert x in multiset(a);
    HeadIsLeast(b, x);
    var y := b[0];
    assert y in multiset(b);
    HeadIsLeast(a, y);
    StrLeAntisymmetric(x, y);
    SortedTail(a);
    SortedTail(b);
    TailMultiset(a);
    TailMultiset(b);
  }

  lemma HeadIsLeast(s: seq<string>, x: string)
    requires Sorted(s) && x in multiset(s)
    ensures s != [] && StrLe(s[0], x)
  {
    var k :| 0 <= k < |s| && s[k] == x;
    StrLeReflexive(x);
    if k > 0 { assert StrLe(s[0], s[k]); }
  }

  lemma SortedTail(s: seq<string>)
    requires Sorted(s) && s != []
    ensures Sorted(s[1..])
  {
    forall i, j | 0 <= i < j < |s| - 1 ensures StrLe(s[1..][i], s[1..][j]) {
      assert s[1..][i] == s[i + 1] && s[1..][j] == s[j + 1];
    }
  }

  lemma TailMultiset(s: seq<string>)
    requires s != []
    ensures multiset(s[1..]) == multiset(s) - multiset{s[0]}
  {
    assert s == [s[0]] + s[1..];
  }

  /** The property names in the order the class declares them, which is the
      order `vars(cls)` lists them. */
  const DECLARED: seq<string> := [
    "page_number", "sha512_hash", "link", "title", "date_published", "vintage",
    "rating", "price", "designation", "variety", "appellation", "winery",
    "alcohol", "bottle_size", "category", "author_name", "review_body",
    "price_per_milliliter"
  ]

  /** The declared property names, in code-point order. */
  const SORTED_NAMES: seq<string> := [
    "alcohol", "appellation", "author_name", "bottle_size", "category", "date_published",
    "designation", "link", "page_number", "price", "price_per_milliliter", "rating",
    "review_body", "sha512_hash", "title", "variety", "vintage", "winery"
  ]

  /** `_get_all_properties()`: the property names, in code-point order. It
      lists every declared property and nothing else, as many names as were
      declared; `AllPropertiesIsSortedDeclared` shows it is what `sorted`
      returns. */
  function AllProperties(): (names: seq<string>)
    ensures |names| == |DECLARED|
    ensures forall n :: n in names <==> n in DECLARED
  {
    SORTED_NAMES
  }

  /** The elements of a sequence. */
  function Elements<T>(s: seq<T>): set<T>
  {
    set x | x in s
  }

  /** No element occurs twice. */
  predicate Distinct<T(==)>(s: seq<T>)
  {
    forall i, j :: 0 <= i < j < |s| ==> s[i] != s[j]
  }

  /** Each name strictly precedes the next one. */
  predicate Ascending(s: seq<string>, lo: int, hi: int)
    requires 0 <= lo <= hi < |s|
  {
    forall i :: lo <= i < hi ==> StrLe(s[i], s[i + 1]) && !StrLe(s[i + 1], s[i])
  }

  /** `a` strictly precedes `b` when they agree on their first `k` characters
      and `a` either ends there or has the smaller character at `k`. */
  lemma {:induction false} LessAt(a: string, b: string, k: nat)
    requires k <= |a| && k < |b| && a[..k] == b[..k]
    requires k == |a| || a[k] < b[k]
    ensures StrLe(a, b) && !StrLe(b, a)
    decreases k
  {
    if k > 0 {
      assert a[0] == a[..k][0] && b[0] == b[..k][0];
      assert a[1..][..k - 1] == a[..k][1..] && b[1..][..k - 1] == b[..k][1..];
      LessAt(a[1..], b[1..], k - 1);
    }
  }

  lemma AscendingFrom0()
    ensures Ascending(SORTED_NAMES, 0, 3)
  {
    var s := SORTED_NAMES;
    assert s[0] == "alcohol" && s[1] == "appellation" && s[2] == "author_name" && s[3] == "bottle_size";
    LessAt("alcohol", "appellation", 1);
    LessAt("appellation", "author_name", 1);
    LessAt("author_name", "bottle_size", 0);
  }

  lemma AscendingFrom3()
    ensures Ascending(SORTED_NAMES, 3, 6)
  {
    var s := SORTED_NAMES;
    assert s[3] == "bottle_size" && s[4] == "category" && s[5] == "date_published" && s[6] == "designation";
    LessAt("bottle_size", "category", 0);
    LessAt("category", "date_published", 0);
    LessAt("date_published", "designation", 1);
  }

  lemma AscendingFrom6()
    ensures Ascending(SORTED_NAMES, 6, 9)
  {
    var s := SORTED_NAMES;
    assert s[6] == "designation" && s[7] == "link" && s[8] == "page_number" && s[9] == "price";
    LessAt("designation", "link", 0);
    LessAt("link", "page_number", 0);
    LessAt("page_number", "price", 1);
  }

  lemma AscendingFrom9()
    ensures Ascending(SORTED_NAMES, 9, 10)
  {
    var s := SORTED_NAMES;
    assert s[9] == "price" && s[10] == "price_per_milliliter";
    LessAt("price", "price_per_milliliter", 5);
  }

  lemma AscendingFrom10()
    ensures Ascending(SORTED_NAMES, 10, 12)
  {
    var s := SORTED_NAMES;
    assert s[10] == "price_per_milliliter" && s[11] == "rating" && s[12] == "review_body";
    LessAt("price_per_milliliter", "rating", 0);
    LessAt("rating", "review_body", 1);
  }

  lemma AscendingFrom12()
    ensures Ascending(SORTED_NAMES, 12, 15)
  {
    var s := SORTED_NAMES;
    assert s[12] == "review_body" && s[13] == "sha512_hash" && s[14] == "title" && s[15] == "variety";
    LessAt("review_body", "sha512_hash", 0);
    LessAt("sha512_hash", "title", 0);
    LessAt("title", "variety", 0);
  }

  lemma AscendingFrom15()
    ensures Ascending(SORTED_NAMES, 15, 17)
  {
    var s := SORTED_NAMES;
    assert s[15] == "variety" && s[16] == "vintage" && s[17] == "winery";
    LessAt("variety", "vintage", 1);
    LessAt("vintage", "winery", 0);
  }

  /** Adjacent strict steps make the whole sequence sorted and free of
      repeats. */
  lemma {:induction false} ChainSorted(s: seq<string>)
    requires s != [] && Ascending(s, 0, |s| - 1)
    ensures Sorted(s) && Distinct(s)
    decreases |s|
  {
    if |s| > 1 {
      var t := s[1..];
      assert Ascending(t, 0, |t| - 1) by {
        forall i | 0 <= i < |t| - 1 ensures StrLe(t[i], t[i + 1]) && !StrLe(t[i + 1], t[i]) {
          assert t[i] == s[i + 1] && t[i + 1] == s[i + 2];
        }
      }
      ChainSorted(t);
      forall j | 0 < j < |s| ensures StrLe(s[0], s[j]) && s[0] != s[j] {
        if j == 1 {
          StrLeReflexive(s[0]);
        } else {
          assert StrLe(s[1], s[j]) && s[1] == t[0] && s[j] == t[j - 1];
          StrLeTransitive(s[0], s[1], s[j]);
        }
      }
      forall i, j | 0 <= i < j < |s| ensures StrLe(s[i], s[j]) && s[i] != s[j] {
        if i > 0 {
          assert s[i] == t[i - 1] && s[j] == t[j - 1];
        }
      }
    }
  }

  /** The list is sorted, without repeats. */
  lemma AllPropertiesSorted()
    ensures Sorted(AllProperties()) && Distinct(AllProperties())
  {
    AscendingFrom0();
    AscendingFrom3();
    AscendingFrom6();
    AscendingFrom9();
    AscendingFrom10();
    AscendingFrom12();
    AscendingFrom15();
    ChainSorted(SORTED_NAMES);
  }

  /** A sequence without repeats has as many distinct elements as
      positions; one with repeats has fewer. */
  lemma {:induction false} DistinctCard<T>(s: seq<T>)
    ensures |Elements(s)| <= |s|
    ensures |Elements(s)| == |s| <==> Distinct(s)
    decreases |s|
  {
    if s != [] {
      var t := s[1..];
      DistinctCard(t);
      assert Elements(s) == Elements(t) + {s[0]};
      if Distinct(s) {
        assert Distinct(t) by {
          forall i, j | 0 <= i < j < |t| ensures t[i] != t[j] {
            assert t[i] == s[i + 1] && t[j] == s[j + 1];
          }
        }
        assert s[0] !in t;
      }
      if |Elements(s)| == |s| {
        assert s[0] !in t && Distinct(t);
        forall i, j | 0 <= i < j < |s| ensures s[i] != s[j] {
          if i == 0 {
            assert s[j] == t[j - 1];
          } else {
            assert s[i] == t[i - 1] && s[j] == t[j - 1];
          }
        }
      }
    }
  }

  /** In a sequence without repeats every element occurs once. */
  lemma {:induction false} DistinctMultiset<T>(s: seq<T>, x: T)
    requires Distinct(s)
    ensures multiset(s)[x] == if x in s then 1 else 0
    decreases |s|
  {
    if s != [] {
      var t := s[1..];
      assert s == [s[0]] + t;
      assert Distinct(t) by {
        forall i, j | 0 <= i < j < |t| ensures t[i] != t[j] {
          assert t[i] == s[i + 1] && t[j] == s[j + 1];
        }
      }
      DistinctMultiset(t, x);
    }
  }

  /** Two sequences of the same length with the same elements, one of them
      without repeats, are permutations of each other. */
  lemma SameElements<T>(s: seq<T>, t: seq<T>)
    requires Distinct(t) && |s| == |t|
    requires Elements(s) == Elements(t)
    ensures multiset(s) == multiset(t)
  {
    DistinctCard(s);
    DistinctCard(t);
    assert Distinct(s);
    forall x ensures multiset(s)[x] == multiset(t)[x] {
      DistinctMultiset(s, x);
      DistinctMultiset(t, x);
      assert x in s <==> x in Elements(s);
      assert x in t <==> x in Elements(t);
    }
  }

  /** The list holds the declared names, each once. */
  lemma AllPropertiesPermutesDeclared()
    ensures multiset(AllProperties()) == multiset(DECLARED)
  {
    AllPropertiesSorted();
    var names := AllProperties();
    assert Elements(DECLARED) == Elements(names);
    SameElements(DECLARED, names);
  }

  /** `sorted` applied to the declared names returns exactly this list. */
  lemma AllPropertiesIsSortedDeclared(sortedNames: seq<string>)
    requires Sorted(sortedNames) && multiset(sortedNames) == multiset(DECLARED)
    ensures sortedNames == AllProperties()
  {
    AllPropertiesSorted();
    AllPropertiesPermutesDeclared();
    SortedUnique(sortedNames, AllProperties());
  }
}

=== FILE: review_page.dfy ===
/** The review-page normaliser: a page object built from one listing card and
    the content read from the card's review page. Its constructor fills the
    scraped-info dictionary in a fixed order (card fields, the page hash, the
    primary-info rows, the secondary-info rows, the flattened structured-data
    pairs, the publication date, the vintage) and records data-quality flags
    on the way. */
module ReviewPages {
  import opened Wrappers
  import opened Values
  import opened Dictionaries
  import opened YearFinder
  import opened Numbers
  import opened Fields

  /** The flag codes. */
  const MULTIPLE_YEARS_IN_TITLE := 1
  const NO_YEAR_IN_TITLE := 2
  const NO_DESIGNATION := 3
  const DUPLICATE_KEY := 4

  /** One review card of a listing page: the texts read from the card, its
      link, and the number of the listing page it was found on. */
  datatype Card = Card(
    title: string,
    appellation: string,
    rating: string,
    price: string,
    link: string,
    pageNumber: int)

  /** What the normaliser reads from a fetched review page, once taken out of
      the HTML: the page hash, the label/value rows of the primary-info and
      secondary-info lists (in document order), the structured-data block
      flattened to dotted keys (in its own order), and the content of the
      publication-time meta tag. */
  datatype PageContent = PageContent(
    hash: seq<bv8>,
    primary: seq<(string, string)>,
    secondary: seq<(string, string)>,
    structured: seq<(string, Value)>,
    datePublished: string)

  /** Label/value rows as dictionary entries holding text. */
  function TextRows(rows: seq<(string, string)>): (entries: seq<(string, Value)>)
    ensures |entries| == |rows|
    ensures forall i :: 0 <= i < |rows| ==> entries[i] == (rows[i].0, Text(rows[i].1))
  {
    seq(|rows|, i requires 0 <= i < |rows| => (rows[i].0, Text(rows[i].1)))
  }

  /** `n` copies of `flag`. */
  function Repeat(n: nat, flag: int): (r: seq<int>)
    ensures |r| == n && forall i :: 0 <= i < n ==> r[i] == flag
  {
    seq(n, _ => flag)
  }

  /** The number of times `x` occurs in `s`. */
  function Count(s: seq<int>, x: int): nat
  {
    if s == [] then 0 else Count(s[..|s| - 1], x) + (if s[|s| - 1] == x then 1 else 0)
  }

  /** The vintage the normaliser stores for a card title: the value of the
      leftmost four-digit run, or null when there is none. */
  function VintageValue(title: string): Value
  {
    var runs := FindAll(title);
    if runs == [] then Null else Int(DigitsValue(runs[0]))
  }

  /** The flags vintage extraction records: one for several runs, one for
      none. */
  function VintageFlags(title: string): seq<int>
  {
    var runs := FindAll(title);
    if runs == [] then [NO_YEAR_IN_TITLE]
    else if |runs| > 1 then [MULTIPLE_YEARS_IN_TITLE]
    else []
  }

  /** The dictionary after seeding: the card fields and the page hash. */
  function Seeded(card: Card, hash: seq<bv8>): Info
  {
    map["link" := Text(card.link), "page_number" := Int(card.pageNumber),
        "title" := Text(card.title), "sha512_hash" := Hash(hash)]
  }

  function AfterPrimary(card: Card, page: PageContent): Info
  {
    Merge(Seeded(card, page.hash), TextRows(page.primary))
  }

  function AfterSecondary(card: Card, page: PageContent): Info
  {
    Merge(AfterPrimary(card, page), TextRows(page.secondary))
  }

  function AfterStructured(card: Card, page: PageContent): Info
  {
    Merge(AfterSecondary(card, page), page.structured)
  }

  /** The scraped-info dictionary of a finished page. */
  function ScrapedInfo(card: Card, page: PageContent): Info
  {
    AfterStructured(card, page)["date_published" := Text(page.datePublished)]
                               ["vintage" := VintageValue(card.title)]
  }

  /** The flags of a finished page, in the order they are recorded. */
  function ScrapedFlags(card: Card, page: PageContent): seq<int>
  {
    Repeat(Collisions(AfterPrimary(card, page), TextRows(page.secondary)), DUPLICATE_KEY)
    + Repeat(Collisions(AfterSecondary(card, page), page.structured), DUPLICATE_KEY)
    + VintageFlags(card.title)
  }

  /** `WineReviewPage`: the scraped-info dictionary and the flag list, filled
      in by the constructor. */
  class WineReviewPage {
    const card: Card
    var info: Info
    var flags: seq<int>

    constructor (card: Card, page: PageContent)
      ensures this.card == card
      ensures info == ScrapedInfo(card, page)
      ensures flags == ScrapedFlags(card, page)
    {
      this.card := card;
      flags := [];
      info := map["link" := Text(card.link), "page_number" := Int(card.pageNumber),
                  "title" := Text(card.title)];
      new;
      info := info["sha512_hash" := Hash(page.hash)];
      GetPrimaryInfo(page.primary);
      GetSecondaryInfo(page.secondary);
      GetJsonPostMetadata(page.structured);
      GetDatePublished(page.datePublished);
      GetVintageFromCardTitle();
    }

    /** `_get_primary_info`: write every row; no flags. */
    method GetPrimaryInfo(rows: seq<(string, string)>)
      modifies this
      ensures info == Merge(old(info), TextRows(rows))
      ensures flags == old(flags)
    {
      ghost var entries := TextRows(rows);
      for i := 0 to |rows|
        invariant info == Merge(old(info), entries[..i])
        invariant flags == old(flags)
      {
        assert entries[..i + 1][..i] == entries[..i];
        info := info[rows[i].0 := Text(rows[i].1)];
      }
      assert entries[..|rows|] == entries;
    }

    /** `_get_secondary_info`: write every row, flagging a row whose label is
      already present. */
    method GetSecondaryInfo(rows: seq<(string, string)>)
      modifies this
      ensures info == Merge(old(info), TextRows(rows))
      ensures flags == old(flags) + Repeat(Collisions(old(info), TextRows(rows)), DUPLICATE_KEY)
    {
      ghost var entries := TextRows(rows);
      for i := 0 to |rows|
        invariant info == Merge(old(info), entries[..i])
        invariant flags == old(flags) + Repeat(Collisions(old(info), entries[..i]), DUPLICATE_KEY)
      {
        assert entries[..i + 1][..i] == entries[..i];
        var potentialKey := rows[i].0;
        if potentialKey in info {
          flags := flags + [DUPLICATE_KEY];
        }
        info := info[potentialKey := Text(rows[i].1)];
      }
      assert entries[..|rows|] == entries;
    }

    /** `_get_json_post_metadata`: write every flattened pair, flagging a key
      that is already present. */
    method GetJsonPostMetadata(pairs: seq<(string, Value)>)
      modifies this
      ensures info == Merge(old(info), pairs)
      ensures flags == old(flags) + Repeat(Collisions(old(info), pairs), DUPLICATE_KEY)
    {
      for i := 0 to |pairs|
        invariant info == Merge(old(info), pairs[..i])
        invariant flags == old(flags) + Repeat(Collisions(old(info), pairs[..i]), DUPLICATE_KEY)
      {
        assert pairs[..i + 1][..i] == pairs[..i];
        var (k, v) := pairs[i];
        if k in info {
          flags := flags + [DUPLICATE_KEY];
        }
        info := info[k := v];
      }
      assert pairs[..|pairs|] == pairs;
    }

    /** `_get_date_published`: overwrite, without a flag. */
    method GetDatePublished(date: string)
      modifies this
      ensures info == old(info)["date_published" := Text(date)]
      ensures flags == old(flags)
    {
      info := info["date_published" := Text(date)];
    }

    /** `_get_vintage_from_card_title`: store the leftmost four-digit run of the
      card's title as an integer, flagging several runs or none. */
    method GetVintageFromCardTitle()
      modifies this
      ensures info == old(info)["vintage" := VintageValue(card.title)]
      ensures flags == old(flags) + VintageFlags(card.title)
    {
      var yearlike := FindAll(card.title);
      if |yearlike| > 0 {
        if |yearlike| > 1 {
          flags := flags + [MULTIPLE_YEARS_IN_TITLE];
        }
      } else {
        flags := flags + [NO_YEAR_IN_TITLE];
        info := info["vintage" := Null];
        return;
      }
      info := info["vintage" := Int(DigitsValue(yearlike[0]))];
    }
  }

  /** Two keys the normaliser writes after every merge step. */
  predicate LateKey(k: string)
  {
    k == "date_published" || k == "vintage"
  }

  /** The structured data wins: a flattened pair that no later pair
      overrides ends up in the dictionary, whatever the card or the
      primary and secondary rows said under the same key. */
  lemma StructuredDataWins(card: Card, page: PageContent, i: int)
    requires 0 <= i < |page.structured|
    requires !LateKey(page.structured[i].0)
    requires forall j :: i < j < |page.structured| ==> page.structured[j].0 != page.structured[i].0
    ensures page.structured[i].0 in ScrapedInfo(card, page)
    ensures ScrapedInfo(card, page)[page.structured[i].0] == page.structured[i].1
  {
    MergeLastWriterWins(AfterSecondary(card, page), page.structured, i);
  }

  /** A secondary-info row beats the primary-info rows and the card fields,
      unless a later secondary row or a structured-data pair names its
      label. */
  lemma SecondaryInfoWins(card: Card, page: PageContent, i: int)
    requires 0 <= i < |page.secondary|
    requires !LateKey(page.secondary[i].0)
    requires forall j :: i < j < |page.secondary| ==> page.secondary[j].0 != page.secondary[i].0
    requires forall j :: 0 <= j < |page.structured| ==> page.structured[j].0 != page.secondary[i].0
    ensures page.secondary[i].0 in ScrapedInfo(card, page)
    ensures ScrapedInfo(card, page)[page.secondary[i].0] == Text(page.secondary[i].1)
  {
    var k := page.secondary[i].0;
    MergeLastWriterWins(AfterPrimary(card, page), TextRows(page.secondary), i);
    MergeUntouched(AfterSecondary(card, page), page.structured, k);
  }

  /** A primary-info row survives when nothing written later names its
      label. */
  lemma PrimaryInfoKept(card: Card, page: PageContent, i: int)
    requires 0 <= i < |page.primary|
    requires !LateKey(page.primary[i].0)
    requires forall j :: i < j < |page.primary| ==> page.primary[j].0 != page.primary[i].0
    requires forall j :: 0 <= j < |page.secondary| ==> page.secondary[j].0 != page.primary[i].0
    requires forall j :: 0 <= j < |page.structured| ==> page.structured[j].0 != page.primary[i].0
    ensures page.primary[i].0 in ScrapedInfo(card, page)
    ensures ScrapedInfo(card, page)[page.primary[i].0] == Text(page.primary[i].1)
  {
    var k := page.primary[i].0;
    MergeLastWriterWins(Seeded(card, page.hash), TextRows(page.primary), i);
    MergeUntouched(AfterPrimary(card, page), TextRows(page.secondary), k);
    MergeUntouched(AfterSecondary(card, page), page.structured, k);
  }

  /** A key no row and no pair names holds its seeded value (the card's
      link, page number or title, or the page hash), and a key nothing
      writes is absent. */
  lemma SeedKept(card: Card, page: PageContent, k: string)
    requires !LateKey(k)
    requires forall j :: 0 <= j < |page.primary| ==> page.primary[j].0 != k
    requires forall j :: 0 <= j < |page.secondary| ==> page.secondary[j].0 != k
    requires forall j :: 0 <= j < |page.structured| ==> page.structured[j].0 != k
    ensures k in ScrapedInfo(card, page) <==> k in Seeded(card, page.hash)
    ensures k in Seeded(card, page.hash) ==> ScrapedInfo(card, page)[k] == Seeded(card, page.hash)[k]
  {
    MergeUntouched(Seeded(card, page.hash), TextRows(page.primary), k);
    MergeUntouched(AfterPrimary(card, page), TextRows(page.secondary), k);
    MergeUntouched(AfterSecondary(card, page), page.structured, k);
  }

  /** The `sha512_hash` property reports the page's hash unless a row or a
      pair overwrote it. */
  lemma HashReported(card: Card, page: PageContent)
    requires forall j :: 0 <= j < |page.primary| ==> page.primary[j].0 != "sha512_hash"
    requires forall j :: 0 <= j < |page.secondary| ==> page.secondary[j].0 != "sha512_hash"
    requires forall j :: 0 <= j < |page.structured| ==> page.structured[j].0 != "sha512_hash"
    ensures Sha512Hash(ScrapedInfo(card, page)) == Success(Digest(page.hash))
  {
    SeedKept(card, page, "sha512_hash");
  }

  /** The `vintage` property of a finished page is the value of the leftmost
      four-digit window of the card's title, and `None` when the title has
      none. */
  lemma VintageIsLeftmostYear(card: Card, page: PageContent)
    ensures Vintage(ScrapedInfo(card, page)) == None <==> forall j :: 0 <= j ==> !YearAt(card.title, j)
    ensures Vintage(ScrapedInfo(card, page)).Some? ==>
      exists i :: YearAt(card.title, i) && (forall j :: 0 <= j < i ==> !YearAt(card.title, j))
               && Vintage(ScrapedInfo(card, page)).value == DigitsValue(card.title[i..i + 4])
  {
    var info := ScrapedInfo(card, page);
    LeftmostRun(card.title);
    assert info["vintage"] == VintageValue(card.title);
    if FindAll(card.title) == [] {
      assert IntOf(Lookup(info, "vintage")) == Failure(TypeError);
    }
  }

  /** The `date_published` property is the content of the meta tag. */
  lemma DatePublishedReported(card: Card, page: PageContent)
    ensures Property(ScrapedInfo(card, page), "date_published") == Success(Raw(Some(Text(page.datePublished))))
  {
    assert ScrapedInfo(card, page)["date_published"] == Text(page.datePublished);
  }

  lemma {:induction false} CountAppend(a: seq<int>, b: seq<int>, x: int)
    ensures Count(a + b, x) == Count(a, x) + Count(b, x)
    decreases |b|
  {
    if b != [] {
      var init := b[..|b| - 1];
      assert (a + b)[..|a + b| - 1] == a + init;
      CountAppend(a, init, x);
    } else {
      assert a + b == a;
    }
  }

  lemma {:induction false} CountRepeat(n: nat, flag: int, x: int)
    ensures Count(Repeat(n, flag), x) == if x == flag then n else 0
  {
    if n > 0 {
      assert Repeat(n, flag)[..n - 1] == Repeat(n - 1, flag);
      CountRepeat(n - 1, flag, x);
    }
  }

  /** What the flag list of a finished page holds: one duplicate-key flag
      per secondary row or structured pair whose key was already present
      (through a card field, the hash, an earlier merge step or an earlier
      row of the same step); one multiple-years flag exactly when the title
      holds two non-overlapping four-digit windows; one no-year flag exactly
      when it holds none; and never a no-designation flag. */
  lemma FlagCounts(card: Card, page: PageContent)
    ensures Count(ScrapedFlags(card, page), DUPLICATE_KEY)
         == |RepeatedRows(AfterPrimary(card, page), TextRows(page.secondary))|
          + |RepeatedRows(AfterSecondary(card, page), page.structured)|
    ensures Count(ScrapedFlags(card, page), MULTIPLE_YEARS_IN_TITLE)
         == if exists p, q :: 0 <= p && p + 4 <= q && YearAt(card.title, p) && YearAt(card.title, q) then 1 else 0
    ensures Count(ScrapedFlags(card, page), NO_YEAR_IN_TITLE)
         == if forall j :: 0 <= j ==> !YearAt(card.title, j) then 1 else 0
    ensures Count(ScrapedFlags(card, page), NO_DESIGNATION) == 0
    ensures |ScrapedFlags(card, page)|
         == Count(ScrapedFlags(card, page), DUPLICATE_KEY) + Count(ScrapedFlags(card, page), MULTIPLE_YEARS_IN_TITLE)
          + Count(ScrapedFlags(card, page), NO_YEAR_IN_TITLE)
  {
    var c1 := Collisions(AfterPrimary(card, page), TextRows(page.secondary));
    var c2 := Collisions(AfterSecondary(card, page), page.structured);
    var v := VintageFlags(card.title);
    var flags := ScrapedFlags(card, page);
    CollisionsCountRepeatedRows(AfterPrimary(card, page), TextRows(page.secondary));
    CollisionsCountRepeatedRows(AfterSecondary(card, page), page.structured);
    LeftmostRun(card.title);
    TwoMatches(card.title, 0);
    forall x | x in {DUPLICATE_KEY, MULTIPLE_YEARS_IN_TITLE, NO_YEAR_IN_TITLE, NO_DESIGNATION}
      ensures Count(flags, x) == (if x == DUPLICATE_KEY then c1 + c2 else 0) + Count(v, x)
    {
      CountAppend(Repeat(c1, DUPLICATE_KEY) + Repeat(c2, DUPLICATE_KEY), v, x);
      CountAppend(Repeat(c1, DUPLICATE_KEY), Repeat(c2, DUPLICATE_KEY), x);
      CountRepeat(c1, DUPLICATE_KEY, x);
      CountRepeat(c2, DUPLICATE_KEY, x);
    }
    assert Count(v, DUPLICATE_KEY) == 0 && Count(v, NO_DESIGNATION) == 0 by {
      assert v == [] || v == [NO_YEAR_IN_TITLE] || v == [MULTIPLE_YEARS_IN_TITLE];
      assert [NO_YEAR_IN_TITLE][..0] == [] && [MULTIPLE_YEARS_IN_TITLE][..0] == [];
    }
    assert Count(v, MULTIPLE_YEARS_IN_TITLE) == (if |FindAll(card.title)| >= 2 then 1 else 0) by {
      assert [NO_YEAR_IN_TITLE][..0] == [] && [MULTIPLE_YEARS_IN_TITLE][..0] == [];
    }
    assert Count(v, NO_YEAR_IN_TITLE) == (if FindAll(card.title) == [] then 1 else 0) by {
      assert [NO_YEAR_IN_TITLE][..0] == [] && [MULTIPLE_YEARS_IN_TITLE][..0] == [];
    }
    assert |v| == Count(v, MULTIPLE_YEARS_IN_TITLE) + Count(v, NO_YEAR_IN_TITLE);
  }
}

=== FILE: scraper.dfy ===
/** The listing-page side of the scraper: reading the review cards of one
    listing page and turning each card into a finished review page and its
    property record. The listing page and every review page come in as
    values; fetching and HTML traversal are outside the model. */
module Scraper {
  import opened Wrappers
  import opened Values
  import opened Fields
  import opened ReviewPages

  /** One review-item element of a listing page, as the lookups see it: the
      text of the title, appellation, rating and price elements, and the
      target of the review-listing anchor, each `None` when the element is
      missing. */
  datatype ReviewItem = ReviewItem(
    title: Option<string>,
    appellation: Option<string>,
    rating: Option<string>,
    price: Option<string>,
    link: Option<string>)

  /** The card read from one review item. The four texts are read in the
      order title, appellation, rating, price; a missing element is `None`,
      whose `get_text` raises `AttributeError`; then a missing anchor is
      `None`, whose subscript raises `TypeError`. */
  function CardOf(item: ReviewItem, pageNumber: int): (r: Result<Card, PyError>)
    ensures r.Success? <==> (item.title.Some? && item.appellation.Some? && item.rating.Some?
                             && item.price.Some? && item.link.Some?)
    ensures r.Success? ==> r.value.link == item.link.value && r.value.pageNumber == pageNumber
                           && r.value.title == item.title.value
    ensures r.Failure? ==> r.error == (if item.title.Some? && item.appellation.Some? && item.rating.Some?
                                          && item.price.Some? then TypeError else AttributeError)
  {
    if item.title.None? || item.appellation.None? || item.rating.None? || item.price.None? then
      Failure(AttributeError)
    else if item.link.None? then
      Failure(TypeError)
    else
      Success(Card(item.title.value, item.appellation.value, item.rating.value, item.price.value,
                   item.link.value, pageNumber))
  }

  /** `parse_all_review_cards`: the cards of the listing page's review items,
      in order, or the first exception a card raises. */
  method ParseAllReviewCards(items: seq<ReviewItem>, pageNumber: int) returns (r: Result<seq<Card>, PyError>)
    ensures r.Success? <==> forall i :: 0 <= i < |items| ==> CardOf(items[i], pageNumber).Success?
    ensures r.Success? ==> |r.value| == |items|
                           && forall i :: 0 <= i < |items| ==> CardOf(items[i], pageNumber) == Success(r.value[i])
    ensures r.Failure? ==> exists i :: 0 <= i < |items| && CardOf(items[i], pageNumber) == Failure(r.error)
                                      && forall j :: 0 <= j < i ==> CardOf(items[j], pageNumber).Success?
  {
    var reviewCardsData: seq<Card> := [];
    for i := 0 to |items|
      invariant |reviewCardsData| == i
      invariant forall j :: 0 <= j < i ==> CardOf(items[j], pageNumber) == Success(reviewCardsData[j])
    {
      var observation := CardOf(items[i], pageNumber);
      if observation.Failure? {
        return Failure(observation.error);
      }
      reviewCardsData := reviewCardsData + [observation.value];
    }
    return Success(reviewCardsData);
  }

  /** The property record of the review page of `card`, whose content
      `fetch` gives for the card's link. */
  function Record(card: Card, fetch: string -> PageContent): Result<map<string, Field>, PyError>
  {
    PropertiesAndValues(ScrapedInfo(card, fetch(card.link)))
  }

  /** The `progress_apply` step: one review page per card, in card order. */
  method BuildPages(cards: seq<Card>, fetch: string -> PageContent) returns (pages: seq<WineReviewPage>)
    ensures |pages| == |cards|
    ensures forall j :: 0 <= j < |cards| ==> pages[j].info == ScrapedInfo(cards[j], fetch(cards[j].link))
  {
    pages := [];
    for i := 0 to |cards|
      invariant |pages| == i
      invariant forall j :: 0 <= j < i ==> pages[j].info == ScrapedInfo(cards[j], fetch(cards[j].link))
    {
      var page := new WineReviewPage(cards[i], fetch(cards[i].link));
      pages := pages + [page];
    }
  }

  /** The list comprehension over the pages: each page's property record
      (`record` of its scraped-info dictionary), in order, or the first
      exception a record raises. */
  method CollectRecords(pages: seq<WineReviewPage>, record: Info -> Result<map<string, Field>, PyError>)
    returns (r: Result<seq<map<string, Field>>, PyError>)
    ensures r.Success? ==> |r.value| == |pages|
                           && forall j :: 0 <= j < |pages| ==> record(pages[j].info) == Success(r.value[j])
    ensures r.Failure? ==> exists i :: 0 <= i < |pages| && record(pages[i].info) == Failure(r.error)
                                      && forall j :: 0 <= j < i ==> record(pages[j].info).Success?
  {
    var records: seq<map<string, Field>> := [];
    for i := 0 to |pages|
      invariant |records| == i
      invariant forall j :: 0 <= j < i ==> record(pages[j].info) == Success(records[j])
    {
      var propertiesAndValues := record(pages[i].info);
      if propertiesAndValues.Failure? {
        return Failure(propertiesAndValues.error);
      }
      records := records + [propertiesAndValues.value];
    }
    return Success(records);
  }

  /** `parse_review_pages`: read the cards, build every review page (all of
      them before any property is read), then collect the property records
      in card order. The first exception escapes: a card's before any page
      is built, otherwise the first page whose record raises. */
  method ParseReviewPages(items: seq<ReviewItem>, pageNumber: int, fetch: string -> PageContent)
    returns (r: Result<seq<map<string, Field>>, PyError>)
    ensures items == [] ==> r == Success([])
    ensures r.Success? ==>
      |r.value| == |items|
      && forall i :: 0 <= i < |items| ==>
           CardOf(items[i], pageNumber).Success?
           && Record(CardOf(items[i], pageNumber).value, fetch) == Success(r.value[i])
    ensures r.Failure? ==>
      (exists i :: 0 <= i < |items| && CardOf(items[i], pageNumber) == Failure(r.error)
                  && forall j :: 0 <= j < i ==> CardOf(items[j], pageNumber).Success?)
      || ((forall i :: 0 <= i < |items| ==> CardOf(items[i], pageNumber).Success?)
          && exists i :: 0 <= i < |items| && Record(CardOf(items[i], pageNumber).value, fetch) == Failure(r.error)
                        && forall j :: 0 <= j < i ==> Record(CardOf(items[j], pageNumber).value, fetch).Success?)
  {
    var reviewCards := ParseAllReviewCards(items, pageNumber);
    if reviewCards.Failure? {
      return Failure(reviewCards.error);
    }
    var cards := reviewCards.value;
    if |cards| == 0 {
      return Success([]);
    }
    var pages := BuildPages(cards, fetch);
    r := CollectRecords(pages, PropertiesAndValues);
    assert forall j :: 0 <= j < |items| ==> CardOf(items[j], pageNumber).value == cards[j];
  }
}

=== FILE: text.dfy ===
/** The string operations the typed properties apply to row text: Python's
    `str.split(sep)` with an explicit one-character separator, and the slices
    `s[1:]` and `s[:-1]`. */
module Text {
  import opened Wrappers

  /** The position of the first `c` in `s`, as `str.find` would report it. */
  function IndexOf(s: string, c: char): (r: Option<nat>)
    ensures r.None? <==> c !in s
    ensures r.Some? ==> r.value < |s| && s[r.value] == c && c !in s[..r.value]
  {
    if s == [] then None
    else if s[0] == c then Some(0)
    else match IndexOf(s[1..], c)
      case None => None
      case Some(i) => Some(i + 1)
  }

  /** `s.split(sep)`: the pieces between the occurrences of `sep`, empty pieces
      included, so that there is always at least one. */
  function SplitOn(s: string, sep: char): (parts: seq<string>)
    ensures |parts| >= 1
    ensures forall i :: 0 <= i < |parts| ==> sep !in parts[i]
    decreases |s|
  {
    match IndexOf(s, sep)
    case None => [s]
    case Some(i) => [s[..i]] + SplitOn(s[i + 1..], sep)
  }

  /** `sep.join(parts)`, the inverse of `SplitOn`. */
  function Join(parts: seq<string>, sep: char): string
    requires |parts| >= 1
  {
    if |parts| == 1 then parts[0] else parts[0] + [sep] + Join(parts[1..], sep)
  }

  /** The number of occurrences of `c` in `s`, as `s.count(c)`. */
  function Occurrences(s: string, c: char): nat
  {
    if s == [] then 0 else (if s[0] == c then 1 else 0) + Occurrences(s[1..], c)
  }

  /** `s[1:]`: everything but the first character; empty stays empty. */
  function DropFirst(s: string): (r: string)
    ensures s == [] ==> r == []
    ensures s != [] ==> [s[0]] + r == s
  {
    if s == [] then [] else s[1..]
  }

  /** `s[:-1]`: everything but the last character; empty stays empty. */
  function DropLast(s: string): (r: string)
    ensures s == [] ==> r == []
    ensures s != [] ==> r + [s[|s| - 1]] == s
  {
    if s == [] then [] else s[..|s| - 1]
  }

  lemma {:induction false} OccurrencesAppend(a: string, b: string, c: char)
    ensures Occurrences(a + b, c) == Occurrences(a, c) + Occurrences(b, c)
    decreases |a|
  {
    if a == [] {
      assert a + b == b;
    } else {
      assert (a + b)[1..] == a[1..] + b;
      OccurrencesAppend(a[1..], b, c);
    }
  }

  lemma {:induction false} OccurrencesAbsent(s: string, c: char)
    requires c !in s
    ensures Occurrences(s, c) == 0
    decreases |s|
  {
    if s != [] {
      assert c !in s[1..];
      OccurrencesAbsent(s[1..], c);
    }
  }

  /** Splitting and joining again gives back the original string. */
  lemma {:induction false} JoinSplit(s: string, sep: char)
    ensures Join(SplitOn(s, sep), sep) == s
    decreases |s|
  {
    match IndexOf(s, sep)
    case None =>
    case Some(i) =>
      var rest := SplitOn(s[i + 1..], sep);
      assert SplitOn(s, sep) == [s[..i]] + rest;
      assert (SplitOn(s, sep))[1..] == rest;
      JoinSplit(s[i + 1..], sep);
      assert s == s[..i] + [sep] + s[i + 1..];
  }

  /** A string splits into one more piece than it has separators. */
  lemma {:induction false} SplitCount(s: string, sep: char)
    ensures |SplitOn(s, sep)| == Occurrences(s, sep) + 1
    decreases |s|
  {
    match IndexOf(s, sep)
    case None =>
      OccurrencesAbsent(s, sep);
    case Some(i) =>
      SplitCount(s[i + 1..], sep);
      assert s == s[..i] + ([sep] + s[i + 1..]);
      OccurrencesAppend(s[..i], [sep] + s[i + 1..], sep);
      OccurrencesAbsent(s[..i], sep);
      assert ([sep] + s[i + 1..])[1..] == s[i + 1..];
  }

  /** Splitting a string that is two separator-free pieces joined by one
      separator gives exactly those two pieces. */
  lemma {:induction false} SplitPair(a: string, b: string, sep: char)
    requires sep !in a && sep !in b
    ensures SplitOn(a + [sep] + b, sep) == [a, b]
  {
    var s := a + [sep] + b;
    assert s[|a|] == sep;
    assert s[..|a|] == a;
    assert s[|a| + 1..] == b;
    assert IndexOf(s, sep) == Some(|a|);
  }

  /** The first piece of a split is the text before the first separator. */
  lemma {:induction false} SplitHead(a: string, tail: string, sep: char)
    requires sep !in a
    requires tail == [] || tail[0] == sep
    ensures SplitOn(a + tail, sep)[0] == a
  {
    var s := a + tail;
    if tail == [] {
      assert s == a;
    } else {
      assert s[|a|] == sep;
      assert s[..|a|] == a;
      assert IndexOf(s, sep) == Some(|a|);
    }
  }
}

=== FILE: values.dfy ===
/** The values a review page's scraped-info dictionary can hold, and the
    exceptions the typed properties can raise. */
module Values {

  /** A value of the scraped-info dictionary: the text of a label/value row or a
      card field, the card's page number, the opaque page hash, and the scalar
      leaves of the flattened structured-data block (strings, numbers, booleans,
      null, and lists, which flattening keeps as they are). */
  datatype Value =
    | Text(s: string)
    | Int(i: int)
    | Real(r: real)
    | Bool(b: bool)
    | Null
    | List(items: seq<Value>)
    | Hash(digest: seq<bv8>)

  /** The Python exceptions a typed property lets escape (or catches). */
  datatype PyError = TypeError | ValueError | AttributeError | ZeroDivisionError
}

=== FILE: wrappers.dfy ===
/** Failure-compatible wrappers: Python's `None` becomes `Option.None`, a raised
    exception becomes `Result.Failure`. */
module Wrappers {

  datatype Option<+T> = None | Some(value: T)

  datatype Result<+R, +E> = Success(value: R) | Failure(error: E)
}

=== FILE: years.dfy ===
/** The year finder the normaliser runs over a card's title: the regular
    expression `\d{4}` and `findall`, which scans left to right and resumes
    after each match, so the runs it returns never overlap. */
module YearFinder {
  import opened Numbers

  /** Four digits begin at position `i` of `s`. */
  predicate YearAt(s: string, i: int)
  {
    0 <= i && i + 4 <= |s| && AllDigits(s[i..i + 4])
  }

  /** The start positions of the matches found by scanning `s` from `i`. */
  function MatchStarts(s: string, i: nat): (r: seq<nat>)
    ensures forall k :: 0 <= k < |r| ==> i <= r[k] && YearAt(s, r[k])
    ensures forall k :: 0 <= k < |r| - 1 ==> r[k] + 4 <= r[k + 1]
    decreases |s| - i
  {
    if i + 4 > |s| then []
    else if YearAt(s, i) then [i] + MatchStarts(s, i + 4)
    else MatchStarts(s, i + 1)
  }

  /** `year_finder.findall(s)`: the matched four-digit runs, left to right. */
  function FindAll(s: string): (runs: seq<string>)
    ensures |runs| == |MatchStarts(s, 0)|
    ensures forall k :: 0 <= k < |runs| ==> |runs[k]| == 4 && AllDigits(runs[k])
  {
    var starts := MatchStarts(s, 0);
    seq(|starts|, k requires 0 <= k < |starts| => s[starts[k]..starts[k] + 4])
  }

  /** The scan from `i` finds nothing exactly when no four digits start at or
      after `i`; otherwise its first match is the leftmost such position. */
  lemma {:induction false} FirstMatch(s: string, i: nat)
    ensures MatchStarts(s, i) == [] <==> forall j :: i <= j ==> !YearAt(s, j)
    ensures MatchStarts(s, i) != [] ==> forall j :: i <= j < MatchStarts(s, i)[0] ==> !YearAt(s, j)
    decreases |s| - i
  {
    if i + 4 > |s| {
    } else if YearAt(s, i) {
    } else {
      FirstMatch(s, i + 1);
    }
  }

  /** Scanning skips positions where no match starts. */
  lemma {:induction false} SkipToMatch(s: string, i: nat, p: nat)
    requires i <= p
    requires forall j :: i <= j < p ==> !YearAt(s, j)
    ensures MatchStarts(s, i) == MatchStarts(s, p)
    decreases p - i
  {
    if i < p {
      assert !YearAt(s, i);
      SkipToMatch(s, i + 1, p);
    }
  }

  /** The scan finds two or more runs exactly when two non-overlapping
      four-digit windows start at or after `i`. */
  lemma TwoMatches(s: string, i: nat)
    ensures |MatchStarts(s, i)| >= 2
        <==> exists p, q :: i <= p && p + 4 <= q && YearAt(s, p) && YearAt(s, q)
  {
    var r := MatchStarts(s, i);
    if |r| >= 2 {
      assert i <= r[0] && r[0] + 4 <= r[1] && YearAt(s, r[0]) && YearAt(s, r[1]);
    }
    if exists p, q :: i <= p && p + 4 <= q && YearAt(s, p) && YearAt(s, q) {
      var p, q :| i <= p && p + 4 <= q && YearAt(s, p) && YearAt(s, q);
      FirstMatch(s, i);
      var p0 := r[0];
      assert p0 <= p;
      SkipToMatch(s, i, p0);
      assert r == [p0] + MatchStarts(s, p0 + 4);
      FirstMatch(s, p0 + 4);
      assert p0 + 4 <= q;
    }
  }

  /** The first run `findall` returns is the leftmost four-digit window. */
  lemma LeftmostRun(s: string)
    ensures FindAll(s) == [] <==> forall j :: 0 <= j ==> !YearAt(s, j)
    ensures FindAll(s) != [] ==> exists i :: YearAt(s, i) && FindAll(s)[0] == s[i..i + 4]
                                  && forall j :: 0 <= j < i ==> !YearAt(s, j)
  {
    FirstMatch(s, 0);
    if FindAll(s) != [] {
      var i := MatchStarts(s, 0)[0];
      assert FindAll(s)[0] == s[i..i + 4];
    }
  }
}
